=== FILE: README.md ===
# edenjson in Dafny

A model of edenjson, a small C++ JSON reader. The model has four parts:

- **`json_parser`**: a recursive-descent parser over a forward-only view of the text. It keeps a line counter and the last error message.
  - Module `ParserSpec` states it as functions from the parser's state to a reply: status, out-parameter and new state.
  - Class `JsonParser.Parser` is the imperative parser: fields, `while` loops and `modifies`.
  - Every method of the class is proved to compute its function in `ParserSpec`. A method `ParseX` computes `XStep` (`ParseValue` computes `ValueStep`, `ParseObject` computes `ObjectStep`, and so on). `Consume` and `TryConsume` compute `ConsumeStep` and `TryConsumeStep`. `SkipWhitespace` computes `SkipWs`, `ReadCodeUnit` computes `CodeUnitStep`, and `Parse` computes `RunParse`.
- **The value tree `json_value`** (module `JsonValue`): total accessors that fall back to shared sentinels.
- **The non-owning optional reference `json_maybe`** (module `JsonMaybe`).
- **The outcome records `parse_error` and `parse_result`** (module `ParseResults`), and the entry point `edenjson::parse` (module `Edenjson`).

Supporting modules:

- `Unicode`: hexadecimal code units, UTF-16 surrogate pairs (section 2.2 of RFC 2781) and UTF-8 encoding (section 3 of RFC 3629).
- `KeyOrder`: the byte-wise key order of `std::map<std::string, …>`.
- `ParserProperties`: what the parser promises across all inputs.
- `ParserScenarios`: the parser on the library's own examples.

The parser's state is the text handed to `parse`, the position the view has reached, the line counter and the error message. On that state the model proves:

- **Status and errors.** Every parsing function returns 0 or -1. On -1, `error_` holds one of the twelve messages. On 0, `error_` is untouched. `error_` is modelled as the enumeration `ParserSpec.Error`: the cleared state plus one constructor per message, whose `Message` is the text `error_` would hold.
- **Progress.** The view only moves forward, and a successful `parse_value` consumes at least one character.
- **Line counting.** Whitespace skipping counts every newline it passes. After a successful parse, the line counter has risen by exactly the newlines the parser passed over. After a failure it has risen by at most that many, because a failing string can consume a newline without counting it: a raw newline inside a string (`unterminated_string`), a newline right after `\` (`invalid_escape`), and a newline where a `\u` escape expects a hex digit, or where a high surrogate expects the `\` or `u` of its partner (`invalid_unicode_escape`).
- **Strings and numbers.** What each escape appends. A number is the longest run of number characters. That run goes to the converter whole, and the converter's answer alone decides success and the value.
- **Objects and arrays.** What the loops keep (keys, element order) and how they fail.

## Model

| member | source | states |
|---|---|---|
| ParserSpec.Error.Message | src/json_parser.hxx:8-19 | the text `error_` holds for each error; empty exactly for the cleared state, so every one of the twelve messages is non-empty |
| ParserSpec.SkipWs | src/json_parser.hxx:77-84 | stops at the end or at the first character that is not C-locale white space; every character skipped is white space; the line counter plus the newlines still ahead is unchanged; the error is untouched |
| ParserProperties.SkipWsCountsNewlines | src/json_parser.hxx:77-84 | the line counter rises by exactly the number of newlines among the characters skipped |
| ParserSpec.ConsumeStep | src/json_parser.hxx:93-101 | returns the character `peek` would return: NUL at the end of input, where the view stays put; otherwise the view moves by exactly one; line and error are never touched |
| ParserSpec.TryConsumeStep | src/json_parser.hxx:103-110 | moves forward only, counts every newline it skips, leaves the error alone, and moves forward when it takes the character; `TryConsumeReads` gives where it lands |
| ParserProperties.TryConsumeReads | src/json_parser.hxx:103-110 | skipping whitespace twice equals skipping it once; `try_consume(c)` takes `c` exactly when `c` is the next character after whitespace, landing just past it, and otherwise stops after the whitespace |
| ParserSpec.ValueStep | src/json_parser.hxx:112-136 | status 0 or -1; the view only moves forward; on success the error is unchanged, every newline passed is counted and at least one character is consumed; on failure the error is one of the twelve messages and the value is null |
| ParserProperties.ValueDispatch | src/json_parser.hxx:112-135 | after whitespace, `{`, `[`, `"`, a digit or `-`, `t` or `f`, and `n` select object, array, string, number, boolean and null; anything else, the end of input included, fails with `unexpected_character` in place |
| ParserSpec.ObjectStep | src/json_parser.hxx:138-149 | status and error discipline as for values; success consumes input and yields an object |
| ParserProperties.ObjectNeedsBrace | src/json_parser.hxx:139-142 | when the first character after the whitespace is not `{`, the result is `open_brace_expected` at that point |
| ParserProperties.EmptyObjectRead | src/json_parser.hxx:144-149 | `{` then `}`, each after optional whitespace, is the empty object, and the view ends just past the `}` |
| ParserSpec.MembersStep | src/json_parser.hxx:151-167 | one pass of the member loop up to storing the member keeps the same discipline and yields an object on success |
| ParserSpec.MemberNext | src/json_parser.hxx:169-182 | what follows a stored member (`}`, `,` or an error) keeps the same discipline and yields an object on success |
| ParserProperties.MembersKeepKeys | src/json_parser.hxx:151-183 | a successful loop keeps every key gathered so far and yields at least one member |
| ParserProperties.NextKeepsKeys | src/json_parser.hxx:169-182 | what follows a stored member keeps every key gathered so far |
| ParserProperties.MemberKeyErrors | src/json_parser.hxx:154-156 | a key that fails passes its own error up unchanged; a key not opening with `"` fails with `double_quote_expected` where it stands |
| ParserProperties.MemberColonError | src/json_parser.hxx:158-161 | a key not followed by `:` fails with `colon_expected` |
| ParserProperties.MemberValueError | src/json_parser.hxx:163-165 | a member value that fails passes its own error up unchanged |
| ParserProperties.MemberStored | src/json_parser.hxx:153-167 | unfolding step of the member loop: a key, a `:` and a value that all read store the value under the key's text, replacing any earlier value for it, and the loop goes on right after the value |
| ParserProperties.MemberClose | src/json_parser.hxx:169-172 | a `}` next after whitespace ends the object with the members gathered, just past the `}` |
| ParserProperties.MemberCommaError | src/json_parser.hxx:169-177 | after a member, anything but `}` or `,` next after whitespace, the end of input included, fails with `comma_expected` where the whitespace ends |
| ParserProperties.MemberTrailingComma | src/json_parser.hxx:174-182 | a `,` after a member, when `try_consume('}')` then takes a `}`, fails with `trailing_comma` just past that `}` |
| ParserProperties.MemberNextMember | src/json_parser.hxx:174-183 | a `,` after a member, when `try_consume('}')` then fails, goes on to the next member from where that `try_consume` stopped, with the members gathered |
| ParserSpec.ArrayStep | src/json_parser.hxx:186-199 | status and error discipline as for values; success consumes input and yields an array |
| ParserProperties.ArrayNeedsBracket | src/json_parser.hxx:187-190 | when the first character after the whitespace is not `[`, the result is `open_bracket_expected` at that point |
| ParserProperties.EmptyArrayRead | src/json_parser.hxx:192-199 | `[` then `]`, each after optional whitespace, is the empty array, and the view ends just past the `]` |
| ParserSpec.ElementsStep | src/json_parser.hxx:201-208 | one pass of the element loop reads a value and keeps the same discipline; it consumes input and yields an array on success, `Null` on failure |
| ParserSpec.ElementsNext | src/json_parser.hxx:210-218 | after an element the loop either ends the array or goes on; it consumes input and yields an array on success, `Null` on failure |
| ParserProperties.ElementRead | src/json_parser.hxx:204-208 | unfolding step of the element loop: a value read successfully is pushed after the elements gathered so far |
| ParserProperties.ElementClose | src/json_parser.hxx:210-213 | `]` after the whitespace ends the array with exactly the elements gathered, just past the bracket |
| ParserProperties.ElementNext | src/json_parser.hxx:215-218 | `,` after the whitespace leads to the next element with the gathered elements unchanged |
| ParserProperties.ElementsKeepOrder | src/json_parser.hxx:201-219 | a successful loop returns the elements gathered so far, then the value it read at its own position, in that order, followed by any later ones |
| ParserProperties.ElementErrors | src/json_parser.hxx:204-218 | an element that fails passes its own error up unchanged; an element followed by anything but `]` or `,` fails with `comma_expected` |
| ParserSpec.StringStep | src/json_parser.hxx:222-226 | when the first character after the whitespace is not `"`, the result is `double_quote_expected` at that point; the line counter after a string is the one after its leading whitespace |
| ParserSpec.CharsStep | src/json_parser.hxx:228-371 | the string body never changes the line counter; success yields a string and consumes input |
| ParserProperties.PlainBodyCopied | src/json_parser.hxx:229-370 | a body without escapes is copied byte for byte up to the closing quote, and the view ends just past it |
| ParserProperties.PlainBodyUnterminated | src/json_parser.hxx:235-243 | end of input, a NUL or a raw newline before the closing quote fails with `unterminated_string`; the newline is consumed but not counted |
| ParserProperties.PlainRunCopied | src/json_parser.hxx:228-366 | a run of characters that are neither a quote, a backslash, a newline nor NUL is appended byte for byte, and the loop goes on right after it |
| ParserProperties.CharsEscape | src/json_parser.hxx:245-362 | a backslash hands the rest to the escape switch; the bytes it returns are appended to the buffer, and its failure passes up unchanged |
| ParserProperties.CharsSimpleEscape | src/json_parser.hxx:245-271 | a backslash and one of the eight simple escapes append the escape's byte, and the loop goes on just past the two characters |
| ParserProperties.QuotedString | src/json_parser.hxx:222-370 | a quoted string without escapes reads as the bytes between its quotes |
| ParserSpec.Unescape | src/json_parser.hxx:247-271 | exactly the eight characters `" \ / b f n r t` are simple escapes |
| ParserSpec.EscapeStep | src/json_parser.hxx:245-362 | an escape never changes the line counter; status and error discipline; success consumes input |
| ParserProperties.EscapeOutcomes | src/json_parser.hxx:245-362 | a simple escape appends exactly its one byte and consumes one character; any other character but `u`, or the end of input, fails with `invalid_escape`; `u` hands the rest to the `\u` reader |
| ParserSpec.UnicodeEscapeStep | src/json_parser.hxx:272-358 | a `\u` escape never changes the line counter; status and error discipline; every failure is `invalid_unicode_escape` |
| ParserProperties.UnicodeEscapeNeedsDigits | src/json_parser.hxx:273-281 | a `\u` not followed by four hex digits fails with `invalid_unicode_escape`; a successful one was followed by four |
| ParserSpec.SurrogateTailStep | src/json_parser.hxx:290-319 | the `\u` and low surrogate after a high surrogate never change the line counter; success consumes input; every failure is `invalid_unicode_escape` |
| ParserProperties.UnicodeEscapeSingle | src/json_parser.hxx:340-355 | four digits that read as a unit which is not a high surrogate are always accepted, and append that unit's UTF-8 encoding of one to three bytes, which decode back to it; a lone low surrogate is accepted and appends three bytes |
| ParserProperties.UnicodeEscapeHigh | src/json_parser.hxx:290-319 | unfolding step of `parse_unicode_escape`: a high surrogate goes on to the `\u` and low surrogate that must follow it |
| ParserProperties.SurrogateTailReads | src/json_parser.hxx:290-319 | after a high surrogate, success needs `\u` at once and then a low surrogate, and appends the UTF-8 encoding of the code point the pair combines to; `\u` and a low surrogate are always accepted; anything but `\u` fails with `invalid_unicode_escape` |
| ParserProperties.SurrogateTailPair | src/json_parser.hxx:318-339 | a pair that reads appends four bytes that decode to a code point in 0x10000..0x10FFFF, which splits back into the two surrogates |
| ParserProperties.UnicodeEscapeOfSpelledUnit | src/json_parser.hxx:340-355 | four digits spelling a code unit that is not a high surrogate append the UTF-8 encoding of that unit |
| ParserProperties.UnicodeEscapeOfDigits | src/json_parser.hxx:272-355 | any four hex digits, in either case, whose value is not a high surrogate append that value's UTF-8 encoding and consume exactly the four digits |
| ParserSpec.CodeUnitStep | src/json_parser.hxx:273-288 | success consumes exactly four characters and yields a value in 0..0xFFFF |
| ParserSpec.HexRun | src/json_parser.hxx:274-281 | success consumes exactly `count` characters and yields hexadecimal digits only; every failure is `invalid_unicode_escape` |
| ParserProperties.HexRunReads | src/json_parser.hxx:274-281 | the digits are read exactly when the next `count` characters are hexadecimal |
| ParserProperties.HexRunDigits | src/json_parser.hxx:274-281 | the digits read are the next `count` characters, appended to those before |
| ParserProperties.CodeUnitReadsFourDigits | src/json_parser.hxx:273-288 | a code unit is read exactly when four hexadecimal digits follow; it is their value; every failure is `invalid_unicode_escape` |
| ParserSpec.NumberEnd | src/json_parser.hxx:376-384 | the run is maximal: every character in it is a digit, `-`, `.`, `e` or `E`, and the one after it is not |
| ParserSpec.NumberStep | src/json_parser.hxx:373-398 | the view ends at the end of the run of number characters, on the same line; success exactly when the converter accepts the run, with the converted number as the value and the error untouched; otherwise `invalid_number` |
| ParserSpec.SkipLiteral | src/json_parser.hxx:400-418 | moving past a literal without newlines keeps the line count exact |
| ParserSpec.BooleanStep | src/json_parser.hxx:400-413 | `true` is the boolean true and moves the view by 4; otherwise `false` is the boolean false and moves it by 5; anything else is `unexpected_character` where the view stands |
| ParserSpec.NullStep | src/json_parser.hxx:415-423 | `null` is the null value and moves the view by 4; anything else is `unexpected_character` where the view stands |
| ParserProperties.ParseOutcome | src/json_parser.hxx:61-70 | the result is truthy exactly when `parse_value` returned 0; success carries the value with the default error; failure carries a null document and one of the twelve messages, on a line between the starting line and the starting line plus the newlines in the text |
| ParserSpec.RunParse | src/json_parser.hxx:61-70 | the state afterwards views the same text, with the line counter never below its start; a truthy result carries the default error and leaves the error cleared; a falsy one carries a null document and the message and line of the parser's state, whose error is set |
| JsonParser.Parser.constructor | src/json_parser.hxx:72-75 | a new parser has an empty view, no error and line 1 |
| JsonParser.Parser.Parse | src/json_parser.hxx:61-70 | computes the result and new state of `RunParse`, continuing from the current line counter |
| JsonParser.Parser.SkipWhitespace | src/json_parser.hxx:77-84 | the loop leaves the parser in the state `SkipWs` describes |
| JsonParser.Parser.Peek | src/json_parser.hxx:86-91 | the next character, or NUL at the end |
| JsonParser.Parser.Consume | src/json_parser.hxx:93-101 | computes `ConsumeStep` on the fields |
| JsonParser.Parser.TryConsume | src/json_parser.hxx:103-110 | computes `TryConsumeStep` on the fields |
| JsonParser.Parser.ParseValue | src/json_parser.hxx:112-136 | computes `ValueStep` on the fields |
| JsonParser.Parser.ParseObject | src/json_parser.hxx:138-184 | the loop computes `ObjectStep`, with the invariant that what is left is `MembersStep` on the members gathered |
| JsonParser.Parser.ParseArray | src/json_parser.hxx:186-220 | the loop computes `ArrayStep`, with the invariant that what is left is `ElementsStep` on the elements gathered |
| JsonParser.Parser.ParseString | src/json_parser.hxx:222-371 | the loop computes `StringStep`, with the invariant that what is left is `CharsStep` on the buffer |
| JsonParser.Parser.ParseEscape | src/json_parser.hxx:245-362 | computes `EscapeStep`: the bytes the escape appends |
| JsonParser.Parser.ReadCodeUnit | src/json_parser.hxx:273-288 | the four-step loop computes `CodeUnitStep` |
| JsonParser.Parser.ParseNumber | src/json_parser.hxx:373-398 | the loop stops at `NumberEnd`, and the result is `NumberStep` |
| JsonParser.Parser.ParseBoolean | src/json_parser.hxx:400-413 | computes `BooleanStep` |
| JsonParser.Parser.ParseNull | src/json_parser.hxx:415-423 | computes `NullStep` |
| Unicode.HexValue | src/json_parser.hxx:283-288 | the value of `n` hexadecimal digits is below 16^n |
| Unicode.HexValue4 | src/json_parser.hxx:283-288 | four hexadecimal digits denote a 16-bit code unit |
| Unicode.HexRoundTrip | src/json_parser.hxx:283-288 | reading back the `width` digits of a number below 16^width gives the number |
| Unicode.CombineSurrogates | src/json_parser.hxx:318-319 | a high and a low surrogate combine to a code point in 0x10000..0x10FFFF |
| Unicode.SplitSurrogates | src/json_parser.hxx:318-319 | a supplementary code point splits into a high and a low surrogate |
| Unicode.CombineThenSplit | src/json_parser.hxx:318-319 | combining a pair and splitting the result gives the pair back |
| Unicode.SplitThenCombine | src/json_parser.hxx:318-319 | splitting a supplementary code point and combining the halves gives it back |
| Unicode.Utf8Encode | src/json_parser.hxx:321-354 | 1, 2, 3 or 4 bytes by range, with the lead-byte and continuation-byte ranges of RFC 3629; nothing above 0x10FFFF; every byte below 256 |
| Unicode.Utf8RoundTrip | src/json_parser.hxx:321-354 | every code point up to 0x10FFFF decodes back from its encoding |
| Unicode.PairRoundTrip | src/json_parser.hxx:318-339 | the encoding of a combined surrogate pair is four bytes that decode to a code point in 0x10000..0x10FFFF splitting back into the pair |
| KeyOrder.BelowIrreflexive | include/json_value.hxx:15 | no key sorts before itself |
| KeyOrder.BelowTransitive | include/json_value.hxx:15 | the key order is transitive |
| KeyOrder.BelowTotal | include/json_value.hxx:15 | any two different keys are ordered one way or the other |
| KeyOrder.BelowAsymmetric | include/json_value.hxx:15 | no two keys sort before each other |
| KeyOrder.LeastExists | include/json_value.hxx:15 | a non-empty set of keys has a least element |
| KeyOrder.LeastUnique | include/json_value.hxx:15 | that least element is unique |
| KeyOrder.SortedKeys | include/json_value.hxx:15 | the keys of a set, each exactly once, in strictly ascending order |
| JsonValue.Value.AsString | include/json_value.hxx:45-50 | has a value exactly when the node is a string, and the value is its text |
| JsonValue.Value.AsNumber | include/json_value.hxx:52-57 | has a value exactly when the node is a number, and the value is that number |
| JsonValue.Value.AsBoolean | include/json_value.hxx:59-64 | has a value exactly when the node is a boolean, and the value is that boolean |
| JsonValue.Value.AsObject | include/json_value.hxx:66-71 | has a value exactly when the node is an object, and the value is its map |
| JsonValue.Value.AsArray | include/json_value.hxx:73-78 | has a value exactly when the node is an array, and the value is its elements |
| JsonValue.Value.AtKey | include/json_value.hxx:80-88 | the mapped value for a key an object holds; the null sentinel otherwise |
| JsonValue.Value.AtIndex | include/json_value.hxx:90-97 | element `index` of an array long enough; the null sentinel otherwise |
| JsonValue.Value.EachElement | include/json_value.hxx:99-110 | the elements of an array in stored order; nothing for any other node |
| JsonValue.Value.EachProperty | include/json_value.hxx:112-123 | for an object, every key exactly once with its value, in strictly ascending key order; nothing for any other node |
| JsonValue.Entries | include/json_value.hxx:112-123 | the entries of a map, each key once with its value, ascending |
| JsonValue.TypeMatchesVariant | include/json_value.hxx:26-43 | exactly one `is_*` predicate holds, and it is the one `type()` names |
| JsonValue.Value.Type | include/json_value.hxx:26-36 | each constructor stores the tag of the alternative it holds, so the tag names exactly that alternative |
| JsonValue.Value.IsObject | include/json_value.hxx:38 | holds exactly when `type()` is `object` |
| JsonValue.Value.IsArray | include/json_value.hxx:39 | holds exactly when `type()` is `array` |
| JsonValue.Value.IsString | include/json_value.hxx:40 | holds exactly when `type()` is `string` |
| JsonValue.Value.IsNumber | include/json_value.hxx:41 | holds exactly when `type()` is `number` |
| JsonValue.Value.IsBoolean | include/json_value.hxx:42 | holds exactly when `type()` is `boolean` |
| JsonValue.Value.IsNull | include/json_value.hxx:43 | holds exactly when `type()` is `null` |
| JsonValue.FollowFromNull | include/json_value.hxx:80-97 | any chain of subscripts from the null sentinel yields the null sentinel |
| JsonValue.FollowAfterMiss | include/json_value.hxx:80-97 | once a subscript misses, the whole chain yields the null sentinel |
| JsonValue.SentinelShapes | src/edenjson.cxx:5-7 | `json_null` is null, `json_empty_object` an object without entries, `json_empty_array` an array without elements; nothing can be read from them |
| JsonMaybe.Maybe.Value | include/json_maybe.hxx:16-21 | requires a target, and returns exactly that target |
| JsonMaybe.Maybe.ValueOr | include/json_maybe.hxx:23-35 | the target when there is one, the default otherwise |
| JsonMaybe.Maybe.ToBool | include/json_maybe.hxx:37 | true exactly when there is a target |
| JsonMaybe.Maybe.Deref | include/json_maybe.hxx:39 | the same object as `Value`, under the same precondition |
| JsonMaybe.Maybe.Arrow | include/json_maybe.hxx:40 | the same object as `Deref`, under the same precondition |
| JsonMaybe.ConstructionStates | include/json_maybe.hxx:11-14 | a default reference is empty and `value_or` gives the default; one built from an object holds that object |
| ParseResults.ParseError.ToBool | include/parse_result.hxx:10 | true exactly when the message is empty |
| ParseResults.ParseResult.ToBool | include/parse_result.hxx:30 | true exactly when the error message is empty |
| ParseResults.Success | include/parse_result.hxx:18-22 | the document, an empty message and line 0; truthy |
| ParseResults.Failure | include/parse_result.hxx:24-28 | a null document, the given message and line; truthy only for an empty message |
| Edenjson.Parse | src/edenjson.cxx:9-12 | the result of a fresh parser, whose line counter starts at 1 |
| ParserScenarios.ParserKeepsCounting | src/json_parser.hxx:61-64 | a parser used a second time reports lines counted on from the first call; a fresh parse of the same text reports line 2 |
| ParserScenarios.EmptyTextFails | test/json_parser.cxx:5-7 | `""` fails with `unexpected_character` on line 1, and the result is falsy |
| ParserScenarios.EmptyObject | test/json_parser.cxx:9-18 | `{}` is the empty object |
| ParserScenarios.EmptyArray | test/json_value.cxx:23-28 | `[]` is the empty array |
| ParserScenarios.ArrayElementsInOrder | test/json_value.cxx:4-21 | `[1, 3, 2]` parses to an array whose elements, walked in stored order, are the numbers 1, 3 and 2 as the converter reads them |
| ParserScenarios.TrueLiteral | test/json_parser.cxx:43-46 | `true` reads as the boolean true |
| ParserScenarios.FalseLiteral | test/json_parser.cxx:38-41 | `false` reads as the boolean false |
| ParserScenarios.TrailingTextIgnored | src/json_parser.hxx:61-69 | text after the first complete value is never looked at |
| ParserScenarios.UnterminatedAtEnd | test/json_parser.cxx:190-194 | `"str` fails with `unterminated_string` on line 1 |
| ParserScenarios.UnterminatedAtNewline | test/json_parser.cxx:196-200 | `"a` then a newline fails with `unterminated_string` on line 1, not 2 |
| ParserScenarios.UnknownEscape | test/json_parser.cxx:202-206 | `"\M"` fails with `invalid_escape` on line 1 |
| ParserScenarios.NewlineOnly | src/json_parser.hxx:77-84 | a lone newline is counted before the end of input is met |
| ParserScenarios.NewlineThenStray | src/json_parser.hxx:61-64 | a newline then a stray character fails one line past the starting line |
| ParserScenarios.NumberWithTrailingWhitespace | test/json_parser.cxx:114-116 | ` 42.67    ` hands `42.67` to the converter, and its value is the document |
| ParserScenarios.NumberRunHandedOver | src/json_parser.hxx:373-393 | `1-2` is handed over whole; the converter rejecting it gives `invalid_number` |
| ParserScenarios.SingleUnicodeEscape | src/json_parser.hxx:340-355 | a string holding one `\u` escape of a unit that is not a high surrogate reads as its UTF-8 encoding |
| ParserScenarios.EscapedAscii | test/json_parser.cxx:88-91 | `"\u0041"` reads as `A` |
| ParserScenarios.EscapedLowercaseHex | src/json_parser.hxx:273-281 | `"\u00e9"` reads as the bytes C3 A9: lowercase hex digits are accepted like uppercase ones |
| ParserScenarios.EscapedQuotesString | src/json_parser.hxx:228-366 | a string of plain runs around two escaped quotes reads as the runs with the quotes put back |
| ParserScenarios.EscapedQuotesInside | test/json_parser.cxx:75-79 | `"My \"string\" of luck is not yet over"` reads as `My "string" of luck is not yet over` |
| ParserScenarios.EscapedQuotesAtEnds | test/json_parser.cxx:81-85 | `"\"string\""` reads as `"string"` |
| ParserScenarios.EscapedTwoBytes | test/json_parser.cxx:93-96 | `"\u00E9"` reads as the bytes C3 A9, the UTF-8 encoding of U+00E9 |
| ParserScenarios.EscapedThreeBytes | test/json_parser.cxx:98-101 | `"\u4E2D"` reads as the bytes E4 B8 AD, the UTF-8 encoding of U+4E2D |
| ParserScenarios.LoneLowSurrogate | src/json_parser.hxx:340-354 | `\uDC00` alone is accepted and reads as the three bytes ED B0 80 |
| ParserScenarios.SurrogatePair | test/json_parser.cxx:103-106 | `"\uD83D\uDE00"` reads as the four bytes F0 9F 98 80 of U+1F600 |
| ParserScenarios.UnpairedHighSurrogate | src/json_parser.hxx:290-294 | `\uD83D` followed by `x` fails with `invalid_unicode_escape` |
| ParserScenarios.DuplicateKeyLastWins | src/json_parser.hxx:167 | `{"a":true,"a":false}` keeps the value written last |
| ParserScenarios.ArrayTrailingComma | src/json_parser.hxx:201-218 | `[true,]` fails with `unexpected_character`, not `trailing_comma` |
| ParserScenarios.ObjectTrailingComma | src/json_parser.hxx:179-182 | `{"a":null,}` fails with `trailing_comma` on line 1 |
| ParserScenarios.ErrorAfterTwoNewlines | src/json_parser.hxx:77-84 | a stray character after two skipped newlines fails on line 3 |

Two facts about the code that the model keeps:

- **White space.** `isspace` in the C locale also accepts vertical tab and form feed, besides the four white-space characters of section 2 of RFC 8259 (space, tab, newline, carriage return).
- **Line counter.** `parse` clears the error and repoints the view, but it does not reset the line counter. A parser used twice counts lines on from the first call (`ParserScenarios.ParserKeepsCounting`). Only the free function `parse`, which builds a fresh parser, starts at line 1.

## Left out

- **Number conversion.** `strtod`, `errno` and the `ERANGE` check in `try_parse_double` (src/json_parser.hxx:22-36) are a parameter, `toDouble: string -> Option<Double>`. `None` is a failed conversion. `Double` is an uninterpreted 64-bit pattern, and the model does no floating-point arithmetic.
- **Hex conversion.** `try_parse_ulong` is replaced by the exact hexadecimal value of four digits that were already checked. Its failure branches (src/json_parser.hxx:285-288, 308-311) cannot be taken and are not modelled.
- **Characters.** A character of the input is a `char` standing for one byte of the `std::string_view`. The C-locale character classes are fixed sets. Locale changes and the undefined behaviour of `isspace`/`isdigit`/`isxdigit` on negative `char` values are not modelled.
- **`closing_bracket_expected`.** The constant is defined and listed among the twelve messages, but no code path uses it; the model does the same.
- **C++ lifetimes.** Ownership, move semantics, `constinit` and the static-initialisation order of the sentinels are not modelled. `json_maybe` holds its target by value, since the tree it points into is never changed.
- **`const` accessors.** That the accessors never change a value holds by construction: the tree is an immutable datatype.
- **Line counter width.** `line_number_` is an `int` and could overflow on a text with more than `INT_MAX` newlines. The model's counter is an unbounded integer.
- **Threads.** Thread safety of parser instances is not modelled; the code has no concurrency logic.
- **Recursion depth.** No nesting-depth limit is modelled, because the code has none. Termination is by the length of the input that remains.
- **`operator[]` results.** `json_value`'s `operator[]` returns a reference into the tree or to the sentinel. The model returns the value, so the identity of the referenced object is not captured.
- **`each_element` and `each_property`.** They return iterable views. The model returns the sequence the iteration visits.
- **Escape examples.** The library's examples put each escape inside an object member. The scenarios read the same escapes as a root string, and `ParserScenarios.DuplicateKeyLastWins` plus the member lemmas cover the object around them.
- **Number examples.** The root-number examples other than ` 42.67    ` differ only in what the converter returns, and are not repeated.
- ParserProperties.MemberTrailingComma: stated with the result of `try_consume('}')` after the comma, not with the character that follows. `ParserProperties.TryConsumeReads` links the two.
- ParserProperties.MemberNextMember: stated with the result of `try_consume('}')` after the comma, not with the character that follows. `ParserProperties.TryConsumeReads` links the two.
- ParserProperties.MemberValueError: stated with the result of `try_consume(':')`, not with the character after the key. `ParserProperties.MemberColonError` covers the missing `:`.
- ParserProperties.MemberStored: stated with the result of `try_consume(':')`, not with the character after the key. `ParserProperties.TryConsumeReads` links the two.
- **Entry point.** `include/edenjson.hxx` only declares `parse`.

=== FILE: edenjson.dfy ===
/** `edenjson::parse`, the library's entry point. */
module Edenjson {
  import opened ParseResults
  import opened ParserSpec
  import opened JsonParser

  /** `parse`: a fresh parser for every call, so numbering starts at line 1 and one call never
      affects another. */
  method Parse(json: string, toDouble: Converter) returns (r: ParseResult)
    ensures r == RunParse(toDouble, json, 1).0
  {
    var parser := new Parser(toDouble);
    r := parser.Parse(json);
  }
}

=== FILE: key_order.dfy ===
/** The key order of `std::map<std::string, json_value>`: `std::string` compares byte by byte
    as unsigned characters, and a proper prefix sorts first. */
module KeyOrder {

  /** Strict lexicographic order on keys. */
  predicate Below(a: string, b: string)
    decreases |a|
  {
    if |a| == 0 then |b| > 0
    else if |b| == 0 then false
    else if a[0] != b[0] then a[0] < b[0]
    else Below(a[1..], b[1..])
  }

  lemma {:induction false} BelowIrreflexive(a: string)
    ensures !Below(a, a)
    decreases |a|
  {
    if |a| > 0 {
      BelowIrreflexive(a[1..]);
    }
  }

  lemma {:induction false} BelowTransitive(a: string, b: string, c: string)
    requires Below(a, b) && Below(b, c)
    ensures Below(a, c)
    decreases |a|
  {
    if |a| > 0 && a[0] == b[0] && b[0] == c[0] {
      BelowTransitive(a[1..], b[1..], c[1..]);
    }
  }

  lemma {:induction false} BelowTotal(a: string, b: string)
    ensures a == b || Below(a, b) || Below(b, a)
    decreases |a|
  {
    if |a| > 0 && |b| > 0 && a[0] == b[0] {
      BelowTotal(a[1..], b[1..]);
      if a[1..] == b[1..] {
        assert a == [a[0]] + a[1..] && b == [b[0]] + b[1..];
      }
    }
  }

  lemma BelowAsymmetric(a: string, b: string)
    ensures !(Below(a, b) && Below(b, a))
  {
    if Below(a, b) && Below(b, a) {
      BelowTransitive(a, b, a);
      BelowIrreflexive(a);
    }
  }

  /** `m` is the smallest key of `keys`. */
  predicate IsLeast(m: string, keys: set<string>) {
    m in keys && forall k :: k in keys && k != m ==> Below(m, k)
  }

  lemma {:induction false} LeastExists(keys: set<string>)
    requires keys != {}
    ensures exists m :: IsLeast(m, keys)
    decreases keys
  {
    var x :| x in keys;
    if keys != {x} {
      var rest := keys - {x};
      LeastExists(rest);
      var m :| IsLeast(m, rest);
      BelowTotal(x, m);
      if Below(x, m) {
        forall k | k in keys && k != x
          ensures Below(x, k)
        {
          if k != m {
            BelowTransitive(x, m, k);
          }
        }
        assert IsLeast(x, keys);
      } else {
        assert IsLeast(m, keys);
      }
    } else {
      assert IsLeast(x, keys);
    }
  }

  /** A set of keys has at most one least element. */
  lemma LeastUnique(keys: set<string>)
    ensures forall m, n :: IsLeast(m, keys) && IsLeast(n, keys) ==> m == n
  {
    forall m, n | IsLeast(m, keys) && IsLeast(n, keys)
      ensures m == n
    {
      if m != n {
        BelowAsymmetric(m, n);
      }
    }
  }

  /** Strictly ascending, hence also free of duplicates. */
  predicate Ascending(ks: seq<string>) {
    forall i, j :: 0 <= i < j < |ks| ==> Below(ks[i], ks[j])
  }

  /** The keys of an ordered map in the order its iterators visit them. */
  function SortedKeys(keys: set<string>): (r: seq<string>)
    ensures |r| == |keys|
    ensures forall i :: 0 <= i < |r| ==> r[i] in keys
    ensures forall k :: k in keys ==> k in r
    ensures Ascending(r)
    decreases keys
  {
    if keys == {} then []
    else
      LeastExists(keys);
      LeastUnique(keys);
      var m :| IsLeast(m, keys);
      var rest := SortedKeys(keys - {m});
      assert forall i :: 0 <= i < |rest| ==> Below(m, rest[i]);
      [m] + rest
  }
}

=== FILE: maybe.dfy ===
/** The optional, non-owning reference `json_maybe<T>`.

    In the model a reference to a live `T` is the `T` itself: the tree it points into is
    immutable, so reading through the reference and reading the value are the same. */
module JsonMaybe {

  /** `Empty` is the default-constructed reference (a null pointer); `Ref(target)` is one
      constructed from a live object. */
  datatype Maybe<T> = Empty | Ref(target: T) {

    /** True when the reference points at something. */
    predicate HasValue() {
      Ref?
    }

    /** Forced access: the source aborts the process when empty, so that is a precondition. */
    function Value(): (r: T)
      requires HasValue()
      ensures this == Ref(r)
    {
      target
    }

    /** The total fallback. Both C++ overloads (by const reference and by rvalue) select the
        referent when present and the supplied default otherwise. */
    function ValueOr(default: T): (r: T)
      ensures HasValue() ==> r == Value()
      ensures !HasValue() ==> r == default
    {
      if HasValue() then target else default
    }

    /** The explicit conversion to bool. */
    predicate ToBool()
      ensures ToBool() <==> HasValue()
    {
      HasValue()
    }

    /** `operator*`: the same object `value()` returns, under the same precondition. */
    function Deref(): (r: T)
      requires HasValue()
      ensures r == Value() && Ref(r) == this
    {
      Value()
    }

    /** `operator->`: points at `value()`; in the model the pointee is the value itself. */
    function Arrow(): (r: T)
      requires HasValue()
      ensures r == Deref() && Ref(r) == this
    {
      Value()
    }
  }

  /** A default-constructed reference holds nothing, one built from a live object holds that
      object, and `value_or` picks accordingly. */
  lemma ConstructionStates<T>(x: T, d: T)
    ensures !Maybe<T>.Empty.HasValue() && Maybe<T>.Empty.ValueOr(d) == d
    ensures Ref(x).HasValue() && Ref(x).Value() == x && Ref(x).ValueOr(d) == x
  {
  }
}

=== FILE: options.dfy ===
/** An owning optional value, for results that may be absent. */
module Options {
  datatype Option<T> = None | Some(value: T)
}

=== FILE: parse_result.dfy ===
/** The outcome records `parse_error` and `parse_result`. */
module ParseResults {
  import opened JsonValue

  /** `message` is empty when there was no error; `line` defaults to 0. */
  datatype ParseError = ParseError(message: string, line: int) {

    /** The explicit conversion to bool: true means "no error". */
    predicate ToBool()
      ensures ToBool() <==> message == ""
    {
      |message| == 0
    }
  }

  /** The default error: an empty message on line 0. */
  const NoError: ParseError := ParseError("", 0)

  datatype ParseResult = ParseResult(document: Value, error: ParseError) {

    /** `!!error`: true exactly when the error message is empty. */
    predicate ToBool()
      ensures ToBool() <==> error.message == ""
    {
      error.ToBool()
    }
  }

  /** `parse_result::success`: the document, with the default (empty) error. */
  function Success(document: Value): (r: ParseResult)
    ensures r.document == document && r.error.message == "" && r.error.line == 0
    ensures r.ToBool()
  {
    ParseResult(document, NoError)
  }

  /** `parse_result::failure`: the default (null) document, with the given message and line. */
  function Failure(message: string, line: int): (r: ParseResult)
    ensures r.document == JsonNull && r.document.IsNull()
    ensures r.error.message == message && r.error.line == line
    ensures r.ToBool() <==> message == ""
  {
    ParseResult(Null, ParseError(message, line))
  }
}

=== FILE: parser.dfy ===
/** `json_parser`: a recursive-descent reader that walks a view of the input forward one
    character at a time, counts lines as it skips whitespace, and records the first error it
    meets. Every member function is proved to compute the function of module `ParserSpec` that
    bears its name. */
module JsonParser {
  import opened Options
  import opened Unicode
  import opened JsonValue
  import opened ParseResults
  import opened ParserSpec

  class Parser {
    /** `strtod` with its range and trailing-character checks. */
    const toDouble: Converter
    /** The text `json_` views, and how far its start has moved. */
    var input: string
    var pos: nat
    /** `line_number_`. */
    var lineNumber: int
    /** `error_`. */
    var error: Error

    ghost predicate Valid()
      reads this
    {
      pos <= |input|
    }

    /** The parser's fields as a value of the specification's state. */
    ghost function Snapshot(): State
      reads this
      requires Valid()
    {
      Cursor(input, pos, lineNumber, error)
    }

    /** A default-constructed parser: empty view, no error, on line 1. */
    constructor(toDouble: Converter)
      ensures Valid() && this.toDouble == toDouble
      ensures Snapshot() == Cursor("", 0, 1, Cleared)
    {
      this.toDouble := toDouble;
      input := "";
      pos := 0;
      lineNumber := 1;
      error := Cleared;
    }

    /** `parse`: points the view at `json`, clears the error, skips whitespace and reads one
        value. The line counter carries on from where the previous call left it. */
    method Parse(json: string) returns (r: ParseResult)
      requires Valid()
      modifies this
      ensures Valid()
      ensures (r, Snapshot()) == RunParse(toDouble, json, old(lineNumber))
    {
      input, pos := json, 0;
      error := Cleared;
      SkipWhitespace();
      var status, root := ParseValue();
      if status == 0 {
        r := Success(root);
      } else {
        r := Failure(error.Message(), lineNumber);
      }
    }

    method SkipWhitespace()
      requires Valid()
      modifies this
      ensures Valid() && Snapshot() == SkipWs(old(Snapshot()))
    {
      while pos < |input| && IsSpace(input[pos])
        invariant Valid() && input == old(input)
        invariant SkipWs(Snapshot()) == SkipWs(old(Snapshot()))
        decreases |input| - pos
      {
        ghost var before := Snapshot();
        if input[pos] == '\n' {
          lineNumber := lineNumber + 1;
        }
        pos := pos + 1;
        assert SkipWs(before) == SkipWs(Snapshot());
      }
    }

    /** `peek`: the next character, or NUL when the view is empty. */
    function Peek(): (c: char)
      reads this
      requires Valid()
      ensures pos < |input| ==> c == input[pos]
      ensures pos == |input| ==> c == '\0'
    {
      if pos == |input| then '\0' else input[pos]
    }

    /** `consume`: takes the next character; at the end it returns NUL and stays put. */
    method Consume() returns (c: char)
      requires Valid()
      modifies this
      ensures Valid() && (c, Snapshot()) == ConsumeStep(old(Snapshot()))
    {
      if pos == |input| {
        return '\0';
      }
      c := input[pos];
      pos := pos + 1;
    }

    method TryConsume(expected: char) returns (taken: bool)
      requires Valid()
      modifies this
      ensures Valid() && (taken, Snapshot()) == TryConsumeStep(old(Snapshot()), expected)
    {
      SkipWhitespace();
      if pos < |input| && input[pos] == expected {
        pos := pos + 1;
        return true;
      }
      return false;
    }

    method ParseValue() returns (status: int, result: Value)
      requires Valid()
      modifies this
      ensures Valid() && Reply(status, result, Snapshot()) == ValueStep(toDouble, old(Snapshot()))
      decreases |input| - pos, 2
    {
      SkipWhitespace();
      var c := Peek();
      if c == '{' {
        status, result := ParseObject();
      } else if c == '[' {
        status, result := ParseArray();
      } else if c == '"' {
        status, result := ParseString();
      } else if IsDigit(c) || c == '-' {
        status, result := ParseNumber();
      } else if c == 't' || c == 'f' {
        status, result := ParseBoolean();
      } else if c == 'n' {
        status, result := ParseNull();
      } else {
        error := UnexpectedCharacter;
        status, result := -1, Null;
      }
    }

    method ParseObject() returns (status: int, result: Value)
      requires Valid()
      modifies this
      ensures Valid() && Reply(status, result, Snapshot()) == ObjectStep(toDouble, old(Snapshot()))
      decreases |input| - pos, 1
    {
      var open := TryConsume('{');
      if !open {
        error := OpenBraceExpected;
        return -1, Null;
      }
      var members: map<string, Value> := map[];
      var close := TryConsume('}');
      if close {
        return 0, Object(members);
      }
      while true
        invariant Valid() && input == old(input) && old(pos) < pos
        invariant ObjectStep(toDouble, old(Snapshot())) == MembersStep(toDouble, Snapshot(), members)
        decreases |input| - pos
      {
        var keyStatus, key := ParseString();
        if keyStatus != 0 {
          return -1, Null;
        }
        var colon := TryConsume(':');
        if !colon {
          error := ColonExpected;
          return -1, Null;
        }
        var valueStatus, value := ParseValue();
        if valueStatus != 0 {
          return -1, Null;
        }
        members := members[key.str := value];
        close := TryConsume('}');
        if close {
          return 0, Object(members);
        }
        var comma := TryConsume(',');
        if !comma {
          error := CommaExpected;
          return -1, Null;
        }
        var trailing := TryConsume('}');
        if trailing {
          error := TrailingComma;
          return -1, Null;
        }
      }
    }

    method ParseArray() returns (status: int, result: Value)
      requires Valid()
      modifies this
      ensures Valid() && Reply(status, result, Snapshot()) == ArrayStep(toDouble, old(Snapshot()))
      decreases |input| - pos, 1
    {
      var open := TryConsume('[');
      if !open {
        error := OpenBracketExpected;
        return -1, Null;
      }
      SkipWhitespace();
      var elements: seq<Value> := [];
      var close := TryConsume(']');
      if close {
        return 0, Array(elements);
      }
      while true
        invariant Valid() && input == old(input) && old(pos) < pos
        invariant ArrayStep(toDouble, old(Snapshot())) == ElementsStep(toDouble, Snapshot(), elements)
        decreases |input| - pos
      {
        var elementStatus, element := ParseValue();
        if elementStatus != 0 {
          return -1, Null;
        }
        elements := elements + [element];
        close := TryConsume(']');
        if close {
          return 0, Array(elements);
        }
        var comma := TryConsume(',');
        if !comma {
          error := CommaExpected;
          return -1, Null;
        }
      }
    }

    method ParseString() returns (status: int, result: Value)
      requires Valid()
      modifies this
      ensures Valid() && Reply(status, result, Snapshot()) == StringStep(old(Snapshot()))
    {
      var open := TryConsume('"');
      if !open {
        error := DoubleQuoteExpected;
        return -1, Null;
      }
      var buffer := "";
      while true
        invariant Valid() && input == old(input)
        invariant StringStep(old(Snapshot())) == CharsStep(Snapshot(), buffer)
        decreases |input| - pos
      {
        var c := Consume();
        if c == '"' {
          break;
        }
        if c == '\0' {
          error := UnterminatedString;
          return -1, Null;
        }
        if c == '\n' {
          error := UnterminatedString;
          return -1, Null;
        }
        if c == '\\' {
          var escapeStatus, bytes := ParseEscape();
          if escapeStatus != 0 {
            return -1, Null;
          }
          buffer := buffer + bytes;
        } else {
          buffer := buffer + [c];
        }
      }
      return 0, String(buffer);
    }

    /** The `switch` on the character after a backslash, returning the bytes it appends. */
    method ParseEscape() returns (status: int, bytes: string)
      requires Valid()
      modifies this
      ensures Valid() && Reply(status, bytes, Snapshot()) == EscapeStep(old(Snapshot()))
    {
      var c := Consume();
      var simple := Unescape(c);
      if simple.Some? {
        return 0, [simple.value];
      }
      if c != 'u' {
        error := InvalidEscape;
        return -1, "";
      }
      var codeStatus, codeUnit := ReadCodeUnit();
      if codeStatus != 0 {
        return -1, "";
      }
      if IsHighSurrogate(codeUnit) {
        var backslash := Consume();
        if backslash != '\\' {
          error := InvalidUnicodeEscape;
          return -1, "";
        }
        var u := Consume();
        if u != 'u' {
          error := InvalidUnicodeEscape;
          return -1, "";
        }
        var lowStatus, lowSurrogate := ReadCodeUnit();
        if lowStatus != 0 {
          return -1, "";
        }
        if !IsLowSurrogate(lowSurrogate) {
          error := InvalidUnicodeEscape;
          return -1, "";
        }
        return 0, Utf8Encode(CombineSurrogates(codeUnit, lowSurrogate));
      }
      return 0, Utf8Encode(codeUnit);
    }

    /** The four-iteration `for` loop that collects hexadecimal digits, and their value. */
    method ReadCodeUnit() returns (status: int, codeUnit: int)
      requires Valid()
      modifies this
      ensures Valid() && Reply(status, codeUnit, Snapshot()) == CodeUnitStep(old(Snapshot()))
    {
      var hex := "";
      for i := 0 to 4
        invariant Valid() && |hex| == i && AllHex(hex)
        invariant HexRun(old(Snapshot()), 4, "") == HexRun(Snapshot(), 4 - i, hex)
      {
        HexRunStep(Snapshot(), 4 - i, hex);
        var hexDigit := Consume();
        if !IsHexDigit(hexDigit) {
          error := InvalidUnicodeEscape;
          return -1, 0;
        }
        hex := hex + [hexDigit];
      }
      HexValue4(hex);
      return 0, HexValue(hex);
    }

    method ParseNumber() returns (status: int, result: Value)
      requires Valid()
      modifies this
      ensures Valid() && Reply(status, result, Snapshot()) == NumberStep(toDouble, old(Snapshot()))
    {
      var numberStart := pos;
      while true
        invariant Valid() && input == old(input) && lineNumber == old(lineNumber) && error == old(error)
        invariant numberStart <= pos && NumberEnd(input, pos) == NumberEnd(input, numberStart)
        decreases |input| - pos
      {
        var c := Peek();
        if IsNumberChar(c) {
          c := Consume();
        } else {
          break;
        }
      }
      match toDouble(input[numberStart..pos])
      case None =>
        error := InvalidNumber;
        return -1, Null;
      case Some(number) =>
        return 0, Number(number);
    }

    method ParseBoolean() returns (status: int, result: Value)
      requires Valid()
      modifies this
      ensures Valid() && Reply(status, result, Snapshot()) == BooleanStep(old(Snapshot()))
    {
      if |input| - pos >= 4 && input[pos..pos + 4] == "true" {
        pos := pos + 4;
        return 0, Boolean(true);
      }
      if |input| - pos >= 5 && input[pos..pos + 5] == "false" {
        pos := pos + 5;
        return 0, Boolean(false);
      }
      error := UnexpectedCharacter;
      return -1, Null;
    }

    method ParseNull() returns (status: int, result: Value)
      requires Valid()
      modifies this
      ensures Valid() && Reply(status, result, Snapshot()) == NullStep(old(Snapshot()))
    {
      if |input| - pos >= 4 && input[pos..pos + 4] == "null" {
        pos := pos + 4;
        return 0, Null;
      }
      error := UnexpectedCharacter;
      return -1, Null;
    }
  }
}

=== FILE: parser_properties.dfy ===
/** What the parser promises beyond its step-by-step definition: how lines are counted, how a
    string body is read, what a `\u` escape turns into, and that arrays and objects keep what
    they have gathered. */
module ParserProperties {
  import opened Options
  import opened Unicode
  import opened JsonValue
  import opened ParseResults
  import opened ParserSpec

  /** The number of newline characters in `s`. */
  function Newlines(s: string): nat {
    if s == [] then 0 else (if s[0] == '\n' then 1 else 0) + Newlines(s[1..])
  }

  lemma {:induction false} NewlinesAppend(a: string, b: string)
    ensures Newlines(a + b) == Newlines(a) + Newlines(b)
  {
    if a != [] {
      assert (a + b)[0] == a[0] && (a + b)[1..] == a[1..] + b;
      NewlinesAppend(a[1..], b);
    } else {
      assert a + b == b;
    }
  }

  /** The newlines ahead of position `pos` are the newlines of the suffix from `pos`. */
  lemma {:induction false} NewlinesAhead(s: string, pos: nat)
    requires pos <= |s|
    ensures NewlinesFrom(s, pos) == Newlines(s[pos..])
    decreases |s| - pos
  {
    if pos < |s| {
      NewlinesAhead(s, pos + 1);
      assert s[pos..][1..] == s[pos + 1..];
    }
  }

  /** Between two states over the same text, the newlines ahead differ by the newlines passed. */
  lemma NewlinesPassed(s: string, p: nat, q: nat)
    requires p <= q <= |s|
    ensures NewlinesFrom(s, p) == Newlines(s[p..q]) + NewlinesFrom(s, q)
  {
    NewlinesAhead(s, p);
    NewlinesAhead(s, q);
    assert s[p..] == s[p..q] + s[q..];
    NewlinesAppend(s[p..q], s[q..]);
  }

  /** `skip_whitespace` raises the line counter by exactly the number of newlines it skips. */
  lemma SkipWsCountsNewlines(st: State)
    ensures var r := SkipWs(st);
      r.line == st.line + Newlines(st.input[st.pos..r.pos])
  {
    NewlinesPassed(st.input, st.pos, SkipWs(st).pos);
  }

  /** A parse that starts on line `line` and fails reports a line between `line` and `line`
      plus the number of newlines in the text; a parse that succeeds reports line 0 and no
      message; and the result is truthy exactly when `parse_value` returned 0. */
  lemma ParseOutcome(conv: Converter, text: string, line: int)
    ensures var v := ValueStep(conv, SkipWs(Cursor(text, 0, line, Cleared)));
      var (result, _) := RunParse(conv, text, line);
      && (result.ToBool() <==> v.status == 0)
      && (v.status == 0 ==> result == ParseResult(v.value, NoError))
      && (v.status != 0 ==> result.document == Null && result.error.message == v.st.error.Message() != "")
      && (v.status != 0 ==> line <= result.error.line <= line + Newlines(text))
  {
    var start := Cursor(text, 0, line, Cleared);
    var s := SkipWs(start);
    var v := ValueStep(conv, s);
    assert Lawful(s, v);
    NewlinesAhead(text, 0);
    assert text[0..] == text;
    assert v.st.line + Ahead(v.st) <= line + Newlines(text);
  }

  /** A character that a string body copies as it is. */
  predicate Plain(c: char) {
    c != '"' && c != '\\' && c != '\n' && c != '\0'
  }

  /** A string body without escapes is copied byte for byte up to the closing quote. */
  lemma {:induction false} PlainBodyCopied(st: State, buffer: string, close: nat)
    requires st.pos <= close < |st.input| && st.input[close] == '"'
    requires forall i :: st.pos <= i < close ==> Plain(st.input[i])
    ensures CharsStep(st, buffer) == Reply(0, String(buffer + st.input[st.pos..close]), st.(pos := close + 1))
    decreases close - st.pos
  {
    if st.pos < close {
      var c := st.input[st.pos];
      PlainBodyCopied(st.(pos := st.pos + 1), buffer + [c], close);
      assert st.input[st.pos..close] == [c] + st.input[st.pos + 1..close];
      assert buffer + [c] + st.input[st.pos + 1..close] == buffer + st.input[st.pos..close];
    } else {
      assert buffer + st.input[st.pos..close] == buffer;
    }
  }

  /** A string body that meets the end of the input, a NUL or a newline before its closing quote
      fails with `unterminated_string`; the newline is consumed but not counted. */
  lemma {:induction false} PlainBodyUnterminated(st: State, buffer: string, stop: nat)
    requires st.pos <= stop <= |st.input|
    requires stop == |st.input| || st.input[stop] == '\0' || st.input[stop] == '\n'
    requires forall i :: st.pos <= i < stop ==> Plain(st.input[i])
    ensures CharsStep(st, buffer)
         == Reply(-1, Null, st.(pos := if stop == |st.input| then stop else stop + 1, error := UnterminatedString))
    decreases stop - st.pos
  {
    var (c, s1) := ConsumeStep(st);
    if st.pos < stop {
      assert Plain(c) && s1 == st.(pos := st.pos + 1);
      PlainBodyUnterminated(s1, buffer + [c], stop);
    } else {
      assert c == '\0' || c == '\n';
    }
  }

  /** A backslash in a string body hands the rest to the escape reader; what it returns is
      appended to the bytes decoded so far, and a failure passes up unchanged. */
  lemma CharsEscape(st: State, buffer: string)
    ensures PeekChar(st) == '\\' ==>
      var e := EscapeStep(st.(pos := st.pos + 1));
      CharsStep(st, buffer) == if e.status != 0 then Reply(-1, Null, e.st) else CharsStep(e.st, buffer + e.value)
  {
    var (c, s1) := ConsumeStep(st);
    assert c == PeekChar(st);
  }

  /** A simple escape in a string body appends the one byte it stands for and the body goes on
      just past it. */
  lemma CharsSimpleEscape(st: State, buffer: string)
    requires st.pos + 1 < |st.input| && st.input[st.pos] == '\\'
    ensures var c := st.input[st.pos + 1];
      Unescape(c).Some? ==> CharsStep(st, buffer) == CharsStep(st.(pos := st.pos + 2), buffer + [Unescape(c).value])
  {
    CharsEscape(st, buffer);
    EscapeOutcomes(st.(pos := st.pos + 1));
  }

  /** A run of plain characters in a string body is copied byte for byte, and the body goes on
      after it. */
  lemma {:induction false} PlainRunCopied(st: State, buffer: string, stop: nat)
    requires st.pos <= stop <= |st.input|
    requires forall i :: st.pos <= i < stop ==> Plain(st.input[i])
    ensures CharsStep(st, buffer) == CharsStep(st.(pos := stop), buffer + st.input[st.pos..stop])
    decreases stop - st.pos
  {
    if st.pos < stop {
      var c := st.input[st.pos];
      PlainRunCopied(st.(pos := st.pos + 1), buffer + [c], stop);
      assert st.input[st.pos..stop] == [c] + st.input[st.pos + 1..stop];
      assert buffer + [c] + st.input[st.pos + 1..stop] == buffer + st.input[st.pos..stop];
    } else {
      assert buffer + st.input[st.pos..stop] == buffer;
    }
  }

  /** The character after a backslash: one of the eight simple escapes appends exactly the one
      byte it stands for; anything but those and `u`, end of input included, fails with
      `invalid_escape`. */
  lemma EscapeOutcomes(st: State)
    ensures var c := PeekChar(st);
      Unescape(c).Some? ==> EscapeStep(st) == Reply(0, [Unescape(c).value], st.(pos := st.pos + 1))
    ensures var c := PeekChar(st);
      Unescape(c).None? && c != 'u' ==> EscapeStep(st).status == -1 && EscapeStep(st).st.error == InvalidEscape
    ensures PeekChar(st) == 'u' ==> EscapeStep(st) == UnicodeEscapeStep(st.(pos := st.pos + 1))
  {
    var (c, s1) := ConsumeStep(st);
    assert c == PeekChar(st);
  }

  lemma AllHexCons(c: char, tail: string)
    ensures AllHex([c] + tail) <==> IsHexDigit(c) && AllHex(tail)
  {
    var whole := [c] + tail;
    assert whole[0] == c;
    if AllHex(whole) {
      forall i | 0 <= i < |tail| ensures IsHexDigit(tail[i]) {
        assert tail[i] == whole[i + 1];
      }
    }
    if IsHexDigit(c) && AllHex(tail) {
      forall i | 0 <= i < |whole| ensures IsHexDigit(whole[i]) {
        if i > 0 {
          assert whole[i] == tail[i - 1];
        }
      }
    }
  }

  /** A run that succeeds has read `count` hexadecimal digits. */
  lemma {:induction false} HexRunNeedsDigits(st: State, count: nat, digits: string)
    requires AllHex(digits)
    ensures HexRun(st, count, digits).status == 0 ==> st.pos + count <= |st.input| && AllHex(st.input[st.pos..st.pos + count])
    decreases count
  {
    if count > 0 && HexRun(st, count, digits).status == 0 {
      var (c, rest) := ConsumeStep(st);
      assert IsHexDigit(c) && st.pos < |st.input| && c == st.input[st.pos] && rest == st.(pos := st.pos + 1);
      assert HexRun(st, count, digits) == HexRun(rest, count - 1, digits + [c]);
      HexRunNeedsDigits(rest, count - 1, digits + [c]);
      assert st.pos + count <= |st.input|;
      var run := st.input[st.pos..st.pos + count];
      assert run[0] == c && run[1..] == st.input[st.pos + 1..st.pos + count];
      assert run == [c] + run[1..];
      AllHexCons(c, st.input[st.pos + 1..st.pos + count]);
    }
  }

  /** `count` hexadecimal digits ahead are always read. */
  lemma {:induction false} HexRunTakesDigits(st: State, count: nat, digits: string)
    requires AllHex(digits)
    ensures st.pos + count <= |st.input| && AllHex(st.input[st.pos..st.pos + count]) ==> HexRun(st, count, digits).status == 0
    decreases count
  {
    if count > 0 && st.pos + count <= |st.input| && AllHex(st.input[st.pos..st.pos + count]) {
      var c := st.input[st.pos];
      assert st.input[st.pos..st.pos + count] == [c] + st.input[st.pos + 1..st.pos + count];
      AllHexCons(c, st.input[st.pos + 1..st.pos + count]);
      var rest := st.(pos := st.pos + 1);
      assert ConsumeStep(st) == (c, rest);
      assert HexRun(st, count, digits) == HexRun(rest, count - 1, digits + [c]);
      HexRunTakesDigits(rest, count - 1, digits + [c]);
    }
  }

  /** `count` digits are read exactly when the next `count` characters are hexadecimal digits. */
  lemma HexRunReads(st: State, count: nat, digits: string)
    requires AllHex(digits)
    ensures var r := HexRun(st, count, digits);
      r.status == 0 <==> st.pos + count <= |st.input| && AllHex(st.input[st.pos..st.pos + count])
  {
    HexRunNeedsDigits(st, count, digits);
    HexRunTakesDigits(st, count, digits);
  }

  /** The digits read are the `count` characters that follow, appended to those before. */
  lemma {:induction false} HexRunDigits(st: State, count: nat, digits: string)
    requires AllHex(digits)
    ensures var r := HexRun(st, count, digits);
      r.status == 0 ==> st.pos + count <= |st.input| && r.value == digits + st.input[st.pos..st.pos + count]
    decreases count
  {
    if count > 0 && st.pos < |st.input| && IsHexDigit(st.input[st.pos]) {
      var c := st.input[st.pos];
      HexRunDigits(st.(pos := st.pos + 1), count - 1, digits + [c]);
      if HexRun(st, count, digits).status == 0 {
        assert st.input[st.pos..st.pos + count] == [c] + st.input[st.pos + 1..st.pos + count];
        assert digits + [c] + st.input[st.pos + 1..st.pos + count] == digits + st.input[st.pos..st.pos + count];
      }
    } else if count == 0 {
      assert digits + st.input[st.pos..st.pos] == digits;
    }
  }

  /** The code unit of a `\u` escape is the value of the four hexadecimal digits that follow. */
  lemma CodeUnitReadsFourDigits(st: State)
    ensures var r := CodeUnitStep(st);
      r.status == 0 <==> st.pos + 4 <= |st.input| && AllHex(st.input[st.pos..st.pos + 4])
    ensures var r := CodeUnitStep(st);
      r.status == 0 ==> r.value == HexValue(st.input[st.pos..st.pos + 4])
  {
    HexRunReads(st, 4, "");
    HexRunDigits(st, 4, "");
    if st.pos + 4 <= |st.input| {
      assert "" + st.input[st.pos..st.pos + 4] == st.input[st.pos..st.pos + 4];
    }
  }

  /** A `\u` escape needs four hexadecimal digits: without them it fails with
      `invalid_unicode_escape`, and one that reads had them. */
  lemma UnicodeEscapeNeedsDigits(st: State)
    ensures !(st.pos + 4 <= |st.input| && AllHex(st.input[st.pos..st.pos + 4])) ==>
      UnicodeEscapeStep(st).status == -1 && UnicodeEscapeStep(st).st.error == InvalidUnicodeEscape
    ensures UnicodeEscapeStep(st).status == 0 ==> st.pos + 4 <= |st.input| && AllHex(st.input[st.pos..st.pos + 4])
  {
    CodeUnitReadsFourDigits(st);
  }

  /** What a `\u` escape of one code unit appends: a code unit that is not a high surrogate (a
      lone low surrogate included) is always accepted and becomes its UTF-8 encoding of one to
      three bytes, which decodes back to it; a low surrogate always takes three bytes. */
  lemma UnicodeEscapeSingle(st: State)
    ensures var high := CodeUnitStep(st);
      high.status == 0 && !IsHighSurrogate(high.value) ==> UnicodeEscapeStep(st) == Reply(0, Utf8Encode(high.value), high.st)
    ensures var r := UnicodeEscapeStep(st); var high := CodeUnitStep(st);
      r.status == 0 && !IsHighSurrogate(high.value) ==>
        1 <= |r.value| <= 3 && Utf8Decode(r.value) == Some(high.value)
    ensures var r := UnicodeEscapeStep(st); var high := CodeUnitStep(st);
      high.status == 0 && IsLowSurrogate(high.value) ==> r.status == 0 && |r.value| == 3
  {
    var high := CodeUnitStep(st);
    if high.status == 0 && !IsHighSurrogate(high.value) {
      Utf8RoundTrip(high.value);
    }
  }

  /** After a high surrogate, success needs `\u` at once and then a low surrogate, and appends
      the UTF-8 encoding of the code point the two combine to; such a pair is always accepted,
      and anything but `\u` fails. */
  lemma SurrogateTailReads(high: int, st: State)
    requires IsHighSurrogate(high)
    ensures var r := SurrogateTailStep(high, st);
      r.status == 0 ==>
        && st.pos + 2 <= |st.input| && st.input[st.pos] == '\\' && st.input[st.pos + 1] == 'u'
        && var low := CodeUnitStep(st.(pos := st.pos + 2));
        && low.status == 0 && IsLowSurrogate(low.value)
        && r.value == Utf8Encode(CombineSurrogates(high, low.value))
    ensures st.pos + 2 <= |st.input| && st.input[st.pos] == '\\' && st.input[st.pos + 1] == 'u' ==>
      var low := CodeUnitStep(st.(pos := st.pos + 2));
      low.status == 0 && IsLowSurrogate(low.value) ==>
        SurrogateTailStep(high, st) == Reply(0, Utf8Encode(CombineSurrogates(high, low.value)), low.st)
    ensures !(st.pos + 2 <= |st.input| && st.input[st.pos] == '\\' && st.input[st.pos + 1] == 'u') ==>
      SurrogateTailStep(high, st).status == -1 && SurrogateTailStep(high, st).st.error == InvalidUnicodeEscape
  {
    var (c1, s1) := ConsumeStep(st);
    if c1 == '\\' {
      var (c2, s2) := ConsumeStep(s1);
      if c2 == 'u' {
        assert st.pos + 2 <= |st.input| && s2 == st.(pos := st.pos + 2);
      }
    }
  }

  /** A `\u` escape of a high surrogate goes on to the `\u` and low surrogate that must follow. */
  lemma UnicodeEscapeHigh(st: State)
    ensures var high := CodeUnitStep(st);
      high.status == 0 && IsHighSurrogate(high.value) ==> UnicodeEscapeStep(st) == SurrogateTailStep(high.value, high.st)
  {
  }

  /** What a surrogate pair appends: four bytes that decode to the supplementary code point the
      pair stands for, from which the two surrogates are recovered. */
  lemma SurrogateTailPair(high: int, st: State)
    requires IsHighSurrogate(high)
    ensures var r := SurrogateTailStep(high, st);
      r.status == 0 ==>
        && st.pos + 2 <= |st.input|
        && var low := CodeUnitStep(st.(pos := st.pos + 2));
        && IsLowSurrogate(low.value) && |r.value| == 4
        && Utf8Decode(r.value).Some? && 0x10000 <= Utf8Decode(r.value).value <= 0x10FFFF
        && SplitSurrogates(Utf8Decode(r.value).value) == (high, low.value)
  {
    SurrogateTailReads(high, st);
    var r := SurrogateTailStep(high, st);
    if r.status == 0 {
      var low := CodeUnitStep(st.(pos := st.pos + 2));
      PairRoundTrip(high, low.value);
    }
  }

  /** `\u` followed by the four digits that spell a code unit outside the surrogate range
      appends the UTF-8 encoding of that code unit. */
  lemma UnicodeEscapeOfSpelledUnit(st: State, unit: nat)
    requires unit <= 0xFFFF && !IsHighSurrogate(unit)
    requires st.pos + 4 <= |st.input| && st.input[st.pos..st.pos + 4] == HexEncode(unit, 4)
    ensures UnicodeEscapeStep(st) == Reply(0, Utf8Encode(unit), st.(pos := st.pos + 4))
  {
    CodeUnitReadsFourDigits(st);
    assert Pow16(4) == 0x10000;
    HexRoundTrip(unit, 4);
  }

  /** `\u` followed by any four hexadecimal digits, in either case, whose value is not a high
      surrogate appends the UTF-8 encoding of that value and consumes exactly the four digits. */
  lemma UnicodeEscapeOfDigits(st: State)
    ensures st.pos + 4 <= |st.input| && AllHex(st.input[st.pos..st.pos + 4]) ==>
      !IsHighSurrogate(HexValue(st.input[st.pos..st.pos + 4])) ==>
        UnicodeEscapeStep(st) == Reply(0, Utf8Encode(HexValue(st.input[st.pos..st.pos + 4])), st.(pos := st.pos + 4))
  {
    CodeUnitReadsFourDigits(st);
  }

  /** The loop of `parse_array` keeps every element gathered so far, in order, and the value it
      reads next comes right after them. */
  lemma {:induction false} ElementsKeepOrder(conv: Converter, st: State, elements: seq<Value>)
    ensures var r := ElementsStep(conv, st, elements);
      r.status == 0 ==> elements < r.value.elements
    ensures var r := ElementsStep(conv, st, elements); var v := ValueStep(conv, st);
      r.status == 0 ==> v.status == 0 && elements + [v.value] <= r.value.elements
    decreases |st.input| - st.pos
  {
    var v := ValueStep(conv, st);
    if v.status == 0 {
      var elements' := elements + [v.value];
      assert elements < elements';
      var (close, s1) := TryConsumeStep(v.st, ']');
      if !close {
        var (comma, s2) := TryConsumeStep(s1, ',');
        if comma {
          ElementsKeepOrder(conv, s2, elements');
        }
      }
    }
  }

  /** The loop of `parse_object` never loses a key once written, and an object it reads
      holds at least the member it has just stored. */
  lemma {:induction false} MembersKeepKeys(conv: Converter, st: State, members: map<string, Value>)
    ensures var r := MembersStep(conv, st, members);
      r.status == 0 ==> members.Keys <= r.value.members.Keys && |r.value.members| >= 1
    decreases |st.input| - st.pos, 0
  {
    var key := StringStep(st);
    if key.status == 0 {
      var (colon, s1) := TryConsumeStep(key.st, ':');
      if colon {
        var v := ValueStep(conv, s1);
        if v.status == 0 {
          var members' := members[key.value.str := v.value];
          NextKeepsKeys(conv, v.st, members');
          assert key.value.str in members';
        }
      }
    }
  }

  /** After a member, the members gathered so far are all in the object read. */
  lemma {:induction false} NextKeepsKeys(conv: Converter, st: State, members: map<string, Value>)
    ensures var r := MemberNext(conv, st, members);
      r.status == 0 ==> members.Keys <= r.value.members.Keys
    decreases |st.input| - st.pos, 1
  {
    var (close, s1) := TryConsumeStep(st, '}');
    if !close {
      var (comma, s2) := TryConsumeStep(s1, ',');
      var (trailing, s3) := TryConsumeStep(s2, '}');
      if comma && !trailing {
        MembersKeepKeys(conv, s3, members);
      }
    }
  }

  /** Skipping whitespace twice is skipping it once, and `try_consume(c)` takes `c` exactly when
      `c` is the next character after the whitespace; either way the whitespace stays skipped. */
  lemma TryConsumeReads(st: State, c: char)
    ensures SkipWs(SkipWs(st)) == SkipWs(st)
    ensures var s := SkipWs(st);
      c != '\0' ==> (TryConsumeStep(st, c).0 <==> PeekChar(s) == c)
    ensures var s := SkipWs(st);
      TryConsumeStep(st, c) == if TryConsumeStep(st, c).0 then (true, s.(pos := s.pos + 1)) else (false, s)
  {
    assert SkipWs(SkipWs(st)) == SkipWs(st);
  }

  /** `parse_object` without a `{` (after optional whitespace) is `open_brace_expected`,
      reported where the whitespace ends. */
  lemma ObjectNeedsBrace(conv: Converter, st: State)
    ensures var s := SkipWs(st);
      PeekChar(s) != '{' ==> ObjectStep(conv, st) == Fail(s, OpenBraceExpected)
  {
    TryConsumeReads(st, '{');
  }

  /** `{` then `}`, each after optional whitespace, is the empty object, read up to the `}`. */
  lemma EmptyObjectRead(conv: Converter, st: State)
    ensures var s := SkipWs(st);
      PeekChar(s) == '{' ==>
        var t := SkipWs(s.(pos := s.pos + 1));
        PeekChar(t) == '}' ==> ObjectStep(conv, st) == Reply(0, Object(map[]), t.(pos := t.pos + 1))
  {
    var s := SkipWs(st);
    if PeekChar(s) == '{' {
      TryConsumeTakes(st, '{');
      TryConsumeReads(s.(pos := s.pos + 1), '}');
    }
  }

  /** `parse_array` without a `[` (after optional whitespace) is `open_bracket_expected`,
      reported where the whitespace ends. */
  lemma ArrayNeedsBracket(conv: Converter, st: State)
    ensures var s := SkipWs(st);
      PeekChar(s) != '[' ==> ArrayStep(conv, st) == Fail(s, OpenBracketExpected)
  {
    TryConsumeReads(st, '[');
  }

  /** `[` then `]`, each after optional whitespace, is the empty array, read up to the `]`. */
  lemma EmptyArrayRead(conv: Converter, st: State)
    ensures var s := SkipWs(st);
      PeekChar(s) == '[' ==>
        var t := SkipWs(s.(pos := s.pos + 1));
        PeekChar(t) == ']' ==> ArrayStep(conv, st) == Reply(0, Array([]), t.(pos := t.pos + 1))
  {
    var s := SkipWs(st);
    if PeekChar(s) == '[' {
      TryConsumeTakes(st, '[');
      TryConsumeReads(s.(pos := s.pos + 1), ']');
    }
  }

  /** `try_consume(c)` when `c` comes next after the whitespace. */
  lemma TryConsumeTakes(st: State, c: char)
    requires PeekChar(SkipWs(st)) == c && c != '\0'
    ensures TryConsumeStep(st, c) == (true, SkipWs(st).(pos := SkipWs(st).pos + 1))
  {
  }

  /** `try_consume(c)` when something else, or nothing, comes next after the whitespace. */
  lemma TryConsumeMisses(st: State, c: char)
    requires PeekChar(SkipWs(st)) != c && c != '\0'
    ensures TryConsumeStep(st, c) == (false, SkipWs(st))
  {
  }

  /** The key of an object member: a key that fails passes its own error up unchanged, and one
      that does not open with `"` fails with `double_quote_expected` where it stands. */
  lemma MemberKeyErrors(conv: Converter, st: State, members: map<string, Value>)
    ensures var key := StringStep(st);
      key.status != 0 ==> MembersStep(conv, st, members) == Reply(-1, Null, key.st)
    ensures var s := SkipWs(st);
      PeekChar(s) != '"' ==> MembersStep(conv, st, members) == Reply(-1, Null, s.(error := DoubleQuoteExpected))
  {
    assert SkipWs(SkipWs(st)) == SkipWs(st);
  }

  /** A key not followed by `:` fails with `colon_expected`. */
  lemma MemberColonError(conv: Converter, st: State, members: map<string, Value>)
    ensures var key := StringStep(st); var s := SkipWs(key.st);
      key.status == 0 && PeekChar(s) != ':' ==>
        MembersStep(conv, st, members) == Reply(-1, Null, s.(error := ColonExpected))
  {
    var key := StringStep(st);
    var s := SkipWs(key.st);
    assert SkipWs(s) == s;
  }

  /** A member value that fails passes its own error up unchanged. */
  lemma MemberValueError(conv: Converter, st: State, members: map<string, Value>)
    ensures var key := StringStep(st); var colon := TryConsumeStep(key.st, ':');
      key.status == 0 && colon.0 ==>
        var v := ValueStep(conv, colon.1);
        v.status != 0 ==> MembersStep(conv, st, members) == Reply(-1, Null, v.st)
  {
  }

  /** A member that reads is stored under its key, replacing any earlier value for that key,
      and the pass goes on after the value. */
  lemma MemberStored(conv: Converter, st: State, members: map<string, Value>)
    ensures var key := StringStep(st); var colon := TryConsumeStep(key.st, ':');
      key.status == 0 && colon.0 ==>
        var v := ValueStep(conv, colon.1);
        v.status == 0 ==> MembersStep(conv, st, members) == MemberNext(conv, v.st, members[key.value.str := v.value])
  {
  }

  /** A `}` after a member ends the object with the members gathered. */
  lemma MemberClose(conv: Converter, st: State, members: map<string, Value>)
    ensures var s := SkipWs(st);
      PeekChar(s) == '}' ==> MemberNext(conv, st, members) == Reply(0, Object(members), s.(pos := s.pos + 1))
  {
    TryConsumeReads(st, '}');
  }

  /** After a member, anything but `}` or `,` fails with `comma_expected` where it stands. */
  lemma MemberCommaError(conv: Converter, st: State, members: map<string, Value>)
    ensures var s := SkipWs(st);
      PeekChar(s) != '}' && PeekChar(s) != ',' ==>
        MemberNext(conv, st, members) == Reply(-1, Null, s.(error := CommaExpected))
  {
    var s := SkipWs(st);
    assert SkipWs(s) == s;
  }

  /** After a member, the `,` that `try_consume(',')` takes: the character after whitespace. */
  lemma CommaTaken(st: State)
    ensures var s := SkipWs(st);
      PeekChar(s) == ',' ==>
        TryConsumeStep(st, '}') == (false, s) && TryConsumeStep(s, ',') == (true, s.(pos := s.pos + 1))
  {
    var s := SkipWs(st);
    if PeekChar(s) == ',' {
      TryConsumeMisses(st, '}');
      assert SkipWs(s) == s;
      TryConsumeTakes(s, ',');
    }
  }

  /** A `,` after which `try_consume('}')` succeeds fails with `trailing_comma`, past the `}`. */
  lemma MemberTrailingComma(conv: Converter, st: State, members: map<string, Value>)
    ensures var s := SkipWs(st);
      PeekChar(s) == ',' ==>
        var trailing := TryConsumeStep(s.(pos := s.pos + 1), '}');
        trailing.0 ==> MemberNext(conv, st, members) == Reply(-1, Null, trailing.1.(error := TrailingComma))
  {
    CommaTaken(st);
  }

  /** A `,` after which `try_consume('}')` fails leads to the next member, read from where that
      `try_consume` left the input. */
  lemma MemberNextMember(conv: Converter, st: State, members: map<string, Value>)
    ensures var s := SkipWs(st);
      PeekChar(s) == ',' ==>
        var trailing := TryConsumeStep(s.(pos := s.pos + 1), '}');
        !trailing.0 ==> MemberNext(conv, st, members) == MembersStep(conv, trailing.1, members)
  {
    CommaTaken(st);
  }

  /** Unfolding step of the loop of `parse_array`: an element that reads is appended after those
      gathered, and the pass goes on right after it. */
  lemma ElementRead(conv: Converter, st: State, elements: seq<Value>)
    ensures var v := ValueStep(conv, st);
      v.status == 0 ==> ElementsStep(conv, st, elements) == ElementsNext(conv, v.st, elements + [v.value])
  {
  }

  /** A `]` after an element ends the array with the elements gathered, just past the `]`. */
  lemma ElementClose(conv: Converter, st: State, elements: seq<Value>)
    ensures var s := SkipWs(st);
      PeekChar(s) == ']' ==> ElementsNext(conv, st, elements) == Reply(0, Array(elements), s.(pos := s.pos + 1))
  {
    TryConsumeReads(st, ']');
  }

  /** A `,` after an element leads to the next element right after the comma, with the elements
      gathered so far. */
  lemma ElementNext(conv: Converter, st: State, elements: seq<Value>)
    ensures var s := SkipWs(st);
      PeekChar(s) == ',' ==> ElementsNext(conv, st, elements) == ElementsStep(conv, s.(pos := s.pos + 1), elements)
  {
    var s := SkipWs(st);
    if PeekChar(s) == ',' {
      assert SkipWs(s) == s;
      assert TryConsumeStep(st, ']') == (false, s);
      assert TryConsumeStep(s, ',') == (true, s.(pos := s.pos + 1));
    }
  }

  /** How one pass of the loop of `parse_array` fails: a failing element passes its own error up
      unchanged, and after an element anything but `]` or `,` is `comma_expected`. */
  lemma ElementErrors(conv: Converter, st: State, elements: seq<Value>)
    ensures var v := ValueStep(conv, st);
      v.status != 0 ==> ElementsStep(conv, st, elements) == Reply(-1, Null, v.st)
    ensures var v := ValueStep(conv, st); var s := SkipWs(v.st);
      v.status == 0 && PeekChar(s) != ']' && PeekChar(s) != ',' ==>
        ElementsStep(conv, st, elements) == Reply(-1, Null, s.(error := CommaExpected))
  {
    var v := ValueStep(conv, st);
    if v.status == 0 {
      var s := SkipWs(v.st);
      assert SkipWs(s) == s;
    }
  }

  /** Dispatch is on the first character after whitespace: `{`, `[`, `"`, a digit or `-`, `t` or
      `f`, `n`; anything else, the end of the input included, fails with `unexpected_character`
      where it stands. */
  lemma ValueDispatch(conv: Converter, st: State)
    ensures var s := SkipWs(st); var c := PeekChar(s);
      && (c == '{' ==> ValueStep(conv, st) == ObjectStep(conv, s))
      && (c == '[' ==> ValueStep(conv, st) == ArrayStep(conv, s))
      && (c == '"' ==> ValueStep(conv, st) == StringStep(s))
      && (IsDigit(c) || c == '-' ==> ValueStep(conv, st) == NumberStep(conv, s))
      && (c == 't' || c == 'f' ==> ValueStep(conv, st) == BooleanStep(s))
      && (c == 'n' ==> ValueStep(conv, st) == NullStep(s))
      && (!(c in "{[\"-tfn" || IsDigit(c)) ==> ValueStep(conv, st) == Reply(-1, Null, s.(error := UnexpectedCharacter)))
  {
  }

  // `ValueDispatch` one case at a time, for use on particular texts.

  lemma DispatchObject(conv: Converter, st: State)
    requires PeekChar(SkipWs(st)) == '{'
    ensures ValueStep(conv, st) == ObjectStep(conv, SkipWs(st))
  {
  }

  lemma DispatchArray(conv: Converter, st: State)
    requires PeekChar(SkipWs(st)) == '['
    ensures ValueStep(conv, st) == ArrayStep(conv, SkipWs(st))
  {
  }

  lemma DispatchString(conv: Converter, st: State)
    requires PeekChar(SkipWs(st)) == '"'
    ensures ValueStep(conv, st) == StringStep(SkipWs(st))
  {
  }

  lemma DispatchNumber(conv: Converter, st: State)
    requires IsDigit(PeekChar(SkipWs(st))) || PeekChar(SkipWs(st)) == '-'
    ensures ValueStep(conv, st) == NumberStep(conv, SkipWs(st))
  {
  }

  lemma DispatchBoolean(conv: Converter, st: State)
    requires PeekChar(SkipWs(st)) == 't' || PeekChar(SkipWs(st)) == 'f'
    ensures ValueStep(conv, st) == BooleanStep(SkipWs(st))
  {
  }

  lemma DispatchNull(conv: Converter, st: State)
    requires PeekChar(SkipWs(st)) == 'n'
    ensures ValueStep(conv, st) == NullStep(SkipWs(st))
  {
  }

  lemma DispatchStray(conv: Converter, st: State)
    requires !(PeekChar(SkipWs(st)) in "{[\"-tfn" || IsDigit(PeekChar(SkipWs(st))))
    ensures ValueStep(conv, st) == Fail(SkipWs(st), UnexpectedCharacter)
  {
  }

  /** A string opens with the `"` after the whitespace, and its body is read from just past it. */
  lemma StringOpens(st: State)
    requires PeekChar(SkipWs(st)) == '"'
    ensures StringStep(st) == CharsStep(SkipWs(st).(pos := SkipWs(st).pos + 1), "")
  {
    TryConsumeReads(st, '"');
  }

  /** A quoted string without escapes reads as the bytes between its quotes. */
  lemma QuotedString(st: State, close: nat)
    requires st.pos < close < |st.input| && st.input[st.pos] == '"' && st.input[close] == '"'
    requires forall i :: st.pos < i < close ==> Plain(st.input[i])
    ensures StringStep(st) == Reply(0, String(st.input[st.pos + 1..close]), st.(pos := close + 1))
  {
    assert SkipWs(st) == st;
    TryConsumeTakes(st, '"');
    PlainBodyCopied(st.(pos := st.pos + 1), "", close);
    assert "" + st.input[st.pos + 1..close] == st.input[st.pos + 1..close];
  }
}

=== FILE: parser_scenarios.dfy ===
/** The parser on the inputs of the library's own examples and on the edge cases its code
    implies. A scenario whose text is longer than a few characters takes the text as a parameter
    fixed by a predicate, and is proved one parsing step at a time. */
module ParserScenarios {
  import opened Options
  import opened Unicode
  import opened JsonValue
  import opened ParseResults
  import opened ParserSpec
  import opened ParserProperties
  import opened JsonParser
  import Edenjson

  /** An empty text is not a document. */
  lemma EmptyTextFails(conv: Converter)
    ensures RunParse(conv, "", 1).0 == Failure(UnexpectedCharacter.Message(), 1)
    ensures !RunParse(conv, "", 1).0.ToBool()
  {
  }

  lemma EmptyObject(conv: Converter, text: string)
    requires text == "{}"
    ensures RunParse(conv, text, 1).0 == Success(Object(map[]))
  {
    var s := Cursor(text, 0, 1, Cleared);
    assert SkipWs(s) == s;
    DispatchObject(conv, s);
    assert TryConsumeStep(s, '{') == (true, s.(pos := 1));
    assert TryConsumeStep(s.(pos := 1), '}') == (true, s.(pos := 2));
  }

  /** `[]` reads as the empty array. */
  lemma EmptyArray(conv: Converter, text: string)
    requires text == "[]"
    ensures RunParse(conv, text, 1).0 == Success(Array([]))
  {
    var s := Cursor(text, 0, 1, Cleared);
    assert SkipWs(s) == s;
    DispatchArray(conv, s);
    assert TryConsumeStep(s, '[') == (true, s.(pos := 1));
    assert SkipWs(s.(pos := 1)) == s.(pos := 1);
    assert TryConsumeStep(s.(pos := 1), ']') == (true, s.(pos := 2));
  }

  /** `true` reads as the boolean true. */
  lemma TrueLiteral(conv: Converter, text: string)
    requires text == "true"
    ensures RunParse(conv, text, 1).0 == Success(Boolean(true))
  {
    var s := Cursor(text, 0, 1, Cleared);
    assert SkipWs(s) == s;
    DispatchBoolean(conv, s);
    assert text[0..4] == "true";
  }

  /** `false` reads as the boolean false. */
  lemma FalseLiteral(conv: Converter, text: string)
    requires text == "false"
    ensures RunParse(conv, text, 1).0 == Success(Boolean(false))
  {
    var s := Cursor(text, 0, 1, Cleared);
    assert SkipWs(s) == s;
    DispatchBoolean(conv, s);
    assert text[0..4][0] == 'f';
    assert text[0..5] == "false";
  }

  /** Text after the first complete value is never looked at. */
  lemma TrailingTextIgnored(conv: Converter, text: string)
    requires text == "null x"
    ensures RunParse(conv, text, 1).0 == Success(Null)
  {
    var s := Cursor(text, 0, 1, Cleared);
    assert SkipWs(s) == s;
    DispatchNull(conv, s);
    assert text[0..4] == "null";
  }

  /** A string cut short by the end of the input is unterminated. */
  lemma UnterminatedAtEnd(conv: Converter, text: string)
    requires text == "\"str"
    ensures RunParse(conv, text, 1).0 == Failure(UnterminatedString.Message(), 1)
  {
    var s := Cursor(text, 0, 1, Cleared);
    assert SkipWs(s) == s;
    DispatchString(conv, s);
    StringOpens(s);
    PlainBodyUnterminated(s.(pos := 1), "", 4);
  }

  /** A raw newline inside a string ends it as unterminated, and is not counted: the error is
      on line 1. */
  lemma UnterminatedAtNewline(conv: Converter, text: string)
    requires text == "\"a\nb\""
    ensures RunParse(conv, text, 1).0 == Failure(UnterminatedString.Message(), 1)
  {
    var s := Cursor(text, 0, 1, Cleared);
    assert SkipWs(s) == s;
    DispatchString(conv, s);
    StringOpens(s);
    PlainBodyUnterminated(s.(pos := 1), "", 2);
  }

  lemma UnknownEscape(conv: Converter, text: string)
    requires text == "\"\\M\""
    ensures RunParse(conv, text, 1).0 == Failure(InvalidEscape.Message(), 1)
  {
    var s := Cursor(text, 0, 1, Cleared);
    assert SkipWs(s) == s;
    DispatchString(conv, s);
    StringOpens(s);
    EscapeOutcomes(s.(pos := 2));
    assert CharsStep(s.(pos := 1), "") == Reply(-1, Null, EscapeStep(s.(pos := 2)).st);
  }

  /** A text of one newline: the newline is counted before the end of input is met. */
  lemma NewlineOnly(conv: Converter, line: int)
    ensures RunParse(conv, "\n", line) == (Failure(UnexpectedCharacter.Message(), line + 1), Cursor("\n", 1, line + 1, UnexpectedCharacter))
  {
  }

  /** The line reported for a newline followed by a stray character is one past the line the
      parser starts on: nothing resets the counter. */
  lemma NewlineThenStray(conv: Converter, line: int)
    ensures RunParse(conv, "\nx", line).0 == Failure(UnexpectedCharacter.Message(), line + 1)
  {
  }

  // " 42.67    ": a number between whitespace.

  predicate IsPaddedNumberText(text: string) {
    text == " 42.67    "
  }

  lemma PaddedNumberSkip(text: string)
    requires IsPaddedNumberText(text)
    ensures SkipWs(Cursor(text, 0, 1, Cleared)) == Cursor(text, 1, 1, Cleared)
  {
    assert SkipWs(Cursor(text, 1, 1, Cleared)) == Cursor(text, 1, 1, Cleared);
  }

  lemma PaddedNumberRun(text: string)
    requires IsPaddedNumberText(text)
    ensures NumberEnd(text, 1) == 6 && text[1..6] == "42.67"
  {
    assert NumberEnd(text, 6) == 6;
    assert NumberEnd(text, 4) == 6;
  }

  /** A number is the longest run of number characters after the whitespace, and the converter
      decides what it is worth; trailing whitespace is left alone. */
  lemma NumberWithTrailingWhitespace(conv: Converter, text: string, d: Double)
    requires IsPaddedNumberText(text) && conv("42.67") == Some(d)
    ensures RunParse(conv, text, 1).0 == Success(Number(d))
  {
    PaddedNumberSkip(text);
    DispatchNumber(conv, Cursor(text, 0, 1, Cleared));
    PaddedNumberRun(text);
    assert NumberStep(conv, Cursor(text, 1, 1, Cleared)) == Reply(0, Number(d), Cursor(text, 6, 1, Cleared));
  }

  lemma NumberRunEnd(text: string)
    requires text == "1-2"
    ensures NumberEnd(text, 0) == 3 && text[0..3] == "1-2"
  {
    assert NumberEnd(text, 3) == 3;
    assert NumberEnd(text, 1) == 3;
  }

  /** A run of number characters is handed over whole, whatever its shape; the converter
      rejecting it gives `invalid_number`. */
  lemma NumberRunHandedOver(conv: Converter, text: string)
    requires text == "1-2" && conv("1-2") == None
    ensures RunParse(conv, text, 1).0 == Failure(InvalidNumber.Message(), 1)
  {
    var s := Cursor(text, 0, 1, Cleared);
    assert SkipWs(s) == s;
    DispatchNumber(conv, s);
    NumberRunEnd(text);
    assert NumberStep(conv, s) == Reply(-1, Null, s.(pos := 3, error := InvalidNumber));
  }

  lemma SingleUnicodeEscapeStep(text: string, unit: nat)
    requires unit <= 0xFFFF && !IsHighSurrogate(unit)
    requires text == "\"\\u" + HexEncode(unit, 4) + "\""
    ensures EscapeStep(Cursor(text, 2, 1, Cleared)) == Reply(0, Utf8Encode(unit), Cursor(text, 7, 1, Cleared))
  {
    assert |text| == 8 && text[2] == 'u';
    assert text[3..7] == HexEncode(unit, 4);
    UnicodeEscapeOfSpelledUnit(Cursor(text, 3, 1, Cleared), unit);
  }

  lemma SingleUnicodeEscapeBody(text: string, unit: nat)
    requires unit <= 0xFFFF && !IsHighSurrogate(unit)
    requires text == "\"\\u" + HexEncode(unit, 4) + "\""
    ensures CharsStep(Cursor(text, 1, 1, Cleared), "") == Reply(0, String(Utf8Encode(unit)), Cursor(text, 8, 1, Cleared))
  {
    SingleUnicodeEscapeStep(text, unit);
    assert |text| == 8 && text[1] == '\\' && text[7] == '"';
    assert "" + Utf8Encode(unit) == Utf8Encode(unit);
    assert CharsStep(Cursor(text, 7, 1, Cleared), Utf8Encode(unit)) == Reply(0, String(Utf8Encode(unit)), Cursor(text, 8, 1, Cleared));
  }

  /** A string holding a single `\u` escape of a code unit outside the high-surrogate range reads
      as the UTF-8 encoding of that code unit. */
  lemma SingleUnicodeEscape(conv: Converter, text: string, unit: nat)
    requires unit <= 0xFFFF && !IsHighSurrogate(unit)
    requires text == "\"\\u" + HexEncode(unit, 4) + "\""
    ensures RunParse(conv, text, 1).0 == Success(String(Utf8Encode(unit)))
  {
    var s := Cursor(text, 0, 1, Cleared);
    assert text[0] == '"';
    assert SkipWs(s) == s;
    DispatchString(conv, s);
    StringOpens(s);
    SingleUnicodeEscapeBody(text, unit);
  }

  lemma EscapedAsciiSpelling()
    ensures HexEncode(0x41, 4) == "0041" && Utf8Encode(0x41) == "A"
  {
    assert HexEncode(0x0, 1) == "0";
    assert HexEncode(0x0, 2) == "00";
    assert HexEncode(0x4, 3) == "004";
  }

  /** `"\u0041"` reads as `A`. */
  lemma EscapedAscii(conv: Converter, text: string)
    requires text == "\"\\u0041\""
    ensures RunParse(conv, text, 1).0 == Success(String("A"))
  {
    var unit: nat := 0x41;
    EscapedAsciiSpelling();
    SingleUnicodeEscape(conv, text, unit);
  }

  lemma EscapedTwoBytesDigits()
    ensures HexEncode(0xE9, 4) == "00E9"
  {
    assert HexEncode(0xE, 2) == "0E";
    assert HexEncode(0xE9, 3) == "0E9";
  }

  lemma EscapedTwoBytesBytes()
    ensures Utf8Encode(0xE9) == [0xC3 as char, 0xA9 as char]
  {
  }

  /** `"\u00E9"` reads as the two bytes of U+00E9. */
  lemma EscapedTwoBytes(conv: Converter, text: string)
    requires text == "\"\\u00E9\""
    ensures RunParse(conv, text, 1).0 == Success(String([0xC3 as char, 0xA9 as char]))
  {
    var unit: nat := 0xE9;
    EscapedTwoBytesDigits();
    EscapedTwoBytesBytes();
    SingleUnicodeEscape(conv, text, unit);
  }

  lemma EscapedThreeBytesDigits()
    ensures HexEncode(0x4E2D, 4) == "4E2D"
  {
    assert HexEncode(0x4, 1) == "4";
    assert HexEncode(0x4E, 2) == "4E";
    assert HexEncode(0x4E2, 3) == "4E2";
  }

  lemma EscapedThreeBytesBytes()
    ensures Utf8Encode(0x4E2D) == [0xE4 as char, 0xB8 as char, 0xAD as char]
  {
  }

  /** `"\u4E2D"` reads as the three bytes of U+4E2D. */
  lemma EscapedThreeBytes(conv: Converter, text: string)
    requires text == "\"\\u4E2D\""
    ensures RunParse(conv, text, 1).0 == Success(String([0xE4 as char, 0xB8 as char, 0xAD as char]))
  {
    var unit: nat := 0x4E2D;
    EscapedThreeBytesDigits();
    EscapedThreeBytesBytes();
    SingleUnicodeEscape(conv, text, unit);
  }

  lemma LoneLowSurrogateDigits()
    ensures HexEncode(0xDC00, 4) == "DC00"
  {
    assert HexEncode(0xD, 1) == "D";
    assert HexEncode(0xDC, 2) == "DC";
    assert HexEncode(0xDC0, 3) == "DC0";
  }

  lemma LoneLowSurrogateBytes()
    ensures Utf8Encode(0xDC00) == [0xED as char, 0xB0 as char, 0x80 as char]
  {
  }

  /** A lone low surrogate is accepted and encoded like any other code unit, as three bytes. */
  lemma LoneLowSurrogate(conv: Converter, text: string)
    requires text == "\"\\uDC00\""
    ensures RunParse(conv, text, 1).0 == Success(String([0xED as char, 0xB0 as char, 0x80 as char]))
  {
    var unit: nat := 0xDC00;
    LoneLowSurrogateDigits();
    LoneLowSurrogateBytes();
    SingleUnicodeEscape(conv, text, unit);
  }

  lemma LowercaseDigits()
    ensures AllHex("00e9") && HexValue("00e9") == 0xE9
  {
    assert "00e9"[..3] == "00e" && "00e"[..2] == "00" && "00"[..1] == "0" && "0"[..0] == "";
  }

  lemma LowercaseEscape(text: string)
    requires text == "\"\\u00e9\""
    ensures EscapeStep(Cursor(text, 2, 1, Cleared)) == Reply(0, [0xC3 as char, 0xA9 as char], Cursor(text, 7, 1, Cleared))
  {
    assert |text| == 8 && text[2] == 'u' && text[3..7] == "00e9";
    LowercaseDigits();
    EscapedTwoBytesBytes();
    UnicodeEscapeOfDigits(Cursor(text, 3, 1, Cleared));
    EscapeOutcomes(Cursor(text, 2, 1, Cleared));
  }

  lemma LowercaseBody(text: string)
    requires text == "\"\\u00e9\""
    ensures CharsStep(Cursor(text, 1, 1, Cleared), "") == Reply(0, String([0xC3 as char, 0xA9 as char]), Cursor(text, 8, 1, Cleared))
  {
    var bytes := [0xC3 as char, 0xA9 as char];
    assert |text| == 8 && text[1] == '\\' && text[7] == '"';
    assert CharsStep(Cursor(text, 7, 1, Cleared), bytes) == Reply(0, String(bytes), Cursor(text, 8, 1, Cleared));
    LowercaseEscape(text);
    assert "" + bytes == bytes;
    CharsEscape(Cursor(text, 1, 1, Cleared), "");
  }

  /** `"\u00e9"`: lowercase hexadecimal digits are read like uppercase ones. */
  lemma EscapedLowercaseHex(conv: Converter, text: string)
    requires text == "\"\\u00e9\""
    ensures RunParse(conv, text, 1).0 == Success(String([0xC3 as char, 0xA9 as char]))
  {
    var s := Cursor(text, 0, 1, Cleared);
    assert text[0] == '"';
    assert SkipWs(s) == s;
    DispatchString(conv, s);
    StringOpens(s);
    LowercaseBody(text);
  }

  /** A run of plain characters followed by an escaped quote: the run and the quote are appended. */
  lemma RunThenQuote(text: string, start: nat, p: nat, buffer: string)
    requires start <= p && p + 1 < |text| && text[p] == '\\' && text[p + 1] == '"'
    requires forall i :: start <= i < p ==> Plain(text[i])
    ensures CharsStep(Cursor(text, start, 1, Cleared), buffer)
         == CharsStep(Cursor(text, p + 2, 1, Cleared), buffer + text[start..p] + ['"'])
  {
    CharsSimpleEscape(Cursor(text, p, 1, Cleared), buffer + text[start..p]);
    PlainRunCopied(Cursor(text, start, 1, Cleared), buffer, p);
  }

  /** A plain run, an escaped quote and a plain run up to the closing quote at the end of the text. */
  lemma QuoteThenClose(text: string, start: nat, p: nat, buffer: string)
    requires start <= p && p + 2 < |text| && text[p] == '\\' && text[p + 1] == '"' && text[|text| - 1] == '"'
    requires forall i :: start <= i < p ==> Plain(text[i])
    requires forall i :: p + 2 <= i < |text| - 1 ==> Plain(text[i])
    ensures CharsStep(Cursor(text, start, 1, Cleared), buffer)
         == Reply(0, String(buffer + text[start..p] + ['"'] + text[p + 2..|text| - 1]), Cursor(text, |text|, 1, Cleared))
  {
    PlainBodyCopied(Cursor(text, p + 2, 1, Cleared), buffer + text[start..p] + ['"'], |text| - 1);
    RunThenQuote(text, start, p, buffer);
  }

  /** The pieces of a string body `a\"w\"b` and where each starts. */
  lemma EscapedQuotesShape(text: string, a: string, w: string, b: string)
    requires forall i :: 0 <= i < |a| ==> Plain(a[i])
    requires forall i :: 0 <= i < |w| ==> Plain(w[i])
    requires forall i :: 0 <= i < |b| ==> Plain(b[i])
    requires text == "\"" + a + "\\\"" + w + "\\\"" + b + "\""
    ensures var p1 := 1 + |a|; var p3 := p1 + 2 + |w|; var close := p3 + 2 + |b|;
      && |text| == close + 1 && text[close] == '"'
      && text[1..p1] == a && text[p1] == '\\' && text[p1 + 1] == '"'
      && text[p1 + 2..p3] == w && text[p3] == '\\' && text[p3 + 1] == '"'
      && text[p3 + 2..close] == b
      && (forall i :: 1 <= i < p1 ==> Plain(text[i]))
      && (forall i :: p1 + 2 <= i < p3 ==> Plain(text[i]))
      && (forall i :: p3 + 2 <= i < close ==> Plain(text[i]))
  {
    var p1 := 1 + |a|; var p3 := p1 + 2 + |w|; var close := p3 + 2 + |b|;
    assert forall i :: 1 <= i < p1 ==> text[i] == a[i - 1];
    assert forall i :: p1 + 2 <= i < p3 ==> text[i] == w[i - p1 - 2];
    assert forall i :: p3 + 2 <= i < close ==> text[i] == b[i - p3 - 2];
  }

  /** A string body made of plain runs around two escaped quotes reads as the runs with the
      quotes put back. */
  lemma EscapedQuotesBody(text: string, a: string, w: string, b: string)
    requires forall i :: 0 <= i < |a| ==> Plain(a[i])
    requires forall i :: 0 <= i < |w| ==> Plain(w[i])
    requires forall i :: 0 <= i < |b| ==> Plain(b[i])
    requires text == "\"" + a + "\\\"" + w + "\\\"" + b + "\""
    ensures CharsStep(Cursor(text, 1, 1, Cleared), "")
         == Reply(0, String(a + "\"" + w + "\"" + b), Cursor(text, |text|, 1, Cleared))
  {
    EscapedQuotesShape(text, a, w, b);
    var p1 := 1 + |a|; var p3 := p1 + 2 + |w|; var close := p3 + 2 + |b|;
    QuoteThenClose(text, p1 + 2, p3, "" + a + ['"']);
    RunThenQuote(text, 1, p1, "");
    assert "" + a + ['"'] + w + ['"'] + b == a + "\"" + w + "\"" + b;
  }

  /** A root string holding two escaped quotes. */
  lemma EscapedQuotesString(conv: Converter, text: string, a: string, w: string, b: string)
    requires forall i :: 0 <= i < |a| ==> Plain(a[i])
    requires forall i :: 0 <= i < |w| ==> Plain(w[i])
    requires forall i :: 0 <= i < |b| ==> Plain(b[i])
    requires text == "\"" + a + "\\\"" + w + "\\\"" + b + "\""
    ensures RunParse(conv, text, 1).0 == Success(String(a + "\"" + w + "\"" + b))
  {
    var s := Cursor(text, 0, 1, Cleared);
    assert text[0] == '"';
    assert SkipWs(s) == s;
    DispatchString(conv, s);
    StringOpens(s);
    EscapedQuotesBody(text, a, w, b);
  }

  lemma EscapedQuotesAtEndsText(text: string)
    requires text == "\"\\\"string\\\"\""
    ensures text == "\"" + "" + "\\\"" + "string" + "\\\"" + "" + "\""
  {
  }

  lemma EscapedQuotesAtEndsValue()
    ensures "" + "\"" + "string" + "\"" + "" == "\"string\""
  {
  }

  /** `"\"string\""`: escaped quotes at both ends of the string. */
  lemma EscapedQuotesAtEnds(conv: Converter, text: string)
    requires text == "\"\\\"string\\\"\""
    ensures RunParse(conv, text, 1).0 == Success(String("\"string\""))
  {
    EscapedQuotesAtEndsText(text);
    EscapedQuotesAtEndsValue();
    EscapedQuotesString(conv, text, "", "string", "");
  }

  lemma EscapedQuotesInsideText(text: string)
    requires text == "\"My \\\"string\\\" of luck is not yet over\""
    ensures text == "\"" + "My " + "\\\"" + "string" + "\\\"" + " of luck is not yet over" + "\""
  {
  }

  lemma EscapedQuotesInsideValue()
    ensures "My " + "\"" + "string" + "\"" + " of luck is not yet over" == "My \"string\" of luck is not yet over"
  {
  }

  /** `"My \"string\" of luck is not yet over"`: escaped quotes in the middle of the string. */
  lemma EscapedQuotesInside(conv: Converter, text: string)
    requires text == "\"My \\\"string\\\" of luck is not yet over\""
    ensures RunParse(conv, text, 1).0 == Success(String("My \"string\" of luck is not yet over"))
  {
    EscapedQuotesInsideText(text);
    EscapedQuotesInsideValue();
    EscapedQuotesString(conv, text, "My ", "string", " of luck is not yet over");
  }

  // "\uD83D\uDE00": a surrogate pair, read as four bytes.

  lemma HighSurrogateDigits()
    ensures AllHex("D83D") && HexValue("D83D") == 0xD83D
  {
    assert "D83D"[..3] == "D83" && "D83"[..2] == "D8" && "D8"[..1] == "D" && "D"[..0] == "";
  }

  lemma LowSurrogateDigits()
    ensures AllHex("DE00") && HexValue("DE00") == 0xDE00
  {
    assert "DE00"[..3] == "DE0" && "DE0"[..2] == "DE" && "DE"[..1] == "D" && "D"[..0] == "";
  }

  lemma HighUnitAt(text: string, pos: nat)
    requires pos + 4 <= |text| && text[pos..pos + 4] == "D83D"
    ensures CodeUnitStep(Cursor(text, pos, 1, Cleared)) == Reply(0, 0xD83D, Cursor(text, pos + 4, 1, Cleared))
  {
    CodeUnitReadsFourDigits(Cursor(text, pos, 1, Cleared));
    HighSurrogateDigits();
  }

  lemma LowUnitAt(text: string, pos: nat)
    requires pos + 4 <= |text| && text[pos..pos + 4] == "DE00"
    ensures CodeUnitStep(Cursor(text, pos, 1, Cleared)) == Reply(0, 0xDE00, Cursor(text, pos + 4, 1, Cleared))
  {
    CodeUnitReadsFourDigits(Cursor(text, pos, 1, Cleared));
    LowSurrogateDigits();
  }

  function PairBytes(): string {
    [0xF0 as char, 0x9F as char, 0x98 as char, 0x80 as char]
  }

  lemma PairSpelling()
    ensures CombineSurrogates(0xD83D, 0xDE00) == 0x1F600 && Utf8Encode(0x1F600) == PairBytes()
  {
  }

  predicate IsPairText(text: string) {
    text == "\"\\uD83D\\uDE00\""
  }

  lemma PairUnits(text: string)
    requires IsPairText(text)
    ensures CodeUnitStep(Cursor(text, 3, 1, Cleared)) == Reply(0, 0xD83D, Cursor(text, 7, 1, Cleared))
    ensures text[7] == '\\' && text[8] == 'u'
    ensures CodeUnitStep(Cursor(text, 9, 1, Cleared)) == Reply(0, 0xDE00, Cursor(text, 13, 1, Cleared))
  {
    assert text[3..7] == "D83D" && text[9..13] == "DE00";
    HighUnitAt(text, 3);
    LowUnitAt(text, 9);
  }

  lemma PairEscape(text: string)
    requires IsPairText(text)
    ensures EscapeStep(Cursor(text, 2, 1, Cleared)) == Reply(0, PairBytes(), Cursor(text, 13, 1, Cleared))
  {
    PairUnits(text);
    PairSpelling();
    assert text[2] == 'u';
    assert UnicodeEscapeStep(Cursor(text, 3, 1, Cleared)) == Reply(0, PairBytes(), Cursor(text, 13, 1, Cleared));
  }

  lemma PairBody(text: string)
    requires IsPairText(text)
    ensures CharsStep(Cursor(text, 1, 1, Cleared), "") == Reply(0, String(PairBytes()), Cursor(text, 14, 1, Cleared))
  {
    PairEscape(text);
    assert text[1] == '\\' && text[13] == '"';
    assert "" + PairBytes() == PairBytes();
    assert CharsStep(Cursor(text, 13, 1, Cleared), PairBytes()) == Reply(0, String(PairBytes()), Cursor(text, 14, 1, Cleared));
  }

  /** The surrogate pair of U+1F600 becomes the four bytes of its UTF-8 encoding. */
  lemma SurrogatePair(conv: Converter, text: string)
    requires IsPairText(text)
    ensures RunParse(conv, text, 1).0 == Success(String([0xF0 as char, 0x9F as char, 0x98 as char, 0x80 as char]))
  {
    var s := Cursor(text, 0, 1, Cleared);
    assert text[0] == '"';
    assert SkipWs(s) == s;
    DispatchString(conv, s);
    StringOpens(s);
    PairBody(text);
  }

  // "\uD83Dx": a high surrogate left unpaired.

  predicate IsUnpairedText(text: string) {
    text == "\"\\uD83Dx\""
  }

  lemma UnpairedEscape(text: string)
    requires IsUnpairedText(text)
    ensures EscapeStep(Cursor(text, 2, 1, Cleared)) == Reply(-1, "", Cursor(text, 8, 1, InvalidUnicodeEscape))
  {
    assert text[3..7] == "D83D";
    HighUnitAt(text, 3);
    assert text[2] == 'u' && text[7] == 'x';
    assert UnicodeEscapeStep(Cursor(text, 3, 1, Cleared)) == Reply(-1, "", Cursor(text, 8, 1, InvalidUnicodeEscape));
  }

  /** A high surrogate followed by anything but `\u` fails. */
  lemma UnpairedHighSurrogate(conv: Converter, text: string)
    requires IsUnpairedText(text)
    ensures RunParse(conv, text, 1).0 == Failure(InvalidUnicodeEscape.Message(), 1)
  {
    var s := Cursor(text, 0, 1, Cleared);
    assert text[0] == '"' && text[1] == '\\';
    assert SkipWs(s) == s;
    DispatchString(conv, s);
    StringOpens(s);
    UnpairedEscape(text);
    assert CharsStep(s.(pos := 1), "") == Reply(-1, Null, Cursor(text, 8, 1, InvalidUnicodeEscape));
  }

  // Pieces of the texts below, wherever they stand; each needs only the characters it reads.

  /** `try_consume(c)` where `c` itself comes next. */
  lemma TakesAt(text: string, pos: nat, c: char)
    requires pos < |text| && text[pos] == c && !IsSpace(c)
    ensures TryConsumeStep(Cursor(text, pos, 1, Cleared), c) == (true, Cursor(text, pos + 1, 1, Cleared))
  {
    assert SkipWs(Cursor(text, pos, 1, Cleared)) == Cursor(text, pos, 1, Cleared);
  }

  /** `try_consume(c)` where something other than `c` and whitespace comes next. */
  lemma MissesAt(text: string, pos: nat, c: char)
    requires pos < |text| && text[pos] != c && !IsSpace(text[pos])
    ensures TryConsumeStep(Cursor(text, pos, 1, Cleared), c) == (false, Cursor(text, pos, 1, Cleared))
  {
    assert SkipWs(Cursor(text, pos, 1, Cleared)) == Cursor(text, pos, 1, Cleared);
  }

  /** The key `"a"`. */
  lemma ShortKeyAt(text: string, pos: nat)
    requires pos + 3 <= |text| && text[pos..pos + 3] == "\"a\""
    ensures StringStep(Cursor(text, pos, 1, Cleared)) == Reply(0, String("a"), Cursor(text, pos + 3, 1, Cleared))
  {
    assert text[pos] == '"' && text[pos + 1] == 'a' && text[pos + 2] == '"';
    QuotedString(Cursor(text, pos, 1, Cleared), pos + 2);
    assert text[pos + 1..pos + 2] == "a";
  }

  lemma TrueAt(conv: Converter, text: string, pos: nat)
    requires pos + 4 <= |text| && text[pos..pos + 4] == "true"
    ensures ValueStep(conv, Cursor(text, pos, 1, Cleared)) == Reply(0, Boolean(true), Cursor(text, pos + 4, 1, Cleared))
  {
    var s := Cursor(text, pos, 1, Cleared);
    assert text[pos..pos + 4][0] == 't';
    assert SkipWs(s) == s;
    DispatchBoolean(conv, s);
  }

  lemma FalseAt(conv: Converter, text: string, pos: nat)
    requires pos + 5 <= |text| && text[pos..pos + 5] == "false"
    ensures ValueStep(conv, Cursor(text, pos, 1, Cleared)) == Reply(0, Boolean(false), Cursor(text, pos + 5, 1, Cleared))
  {
    var s := Cursor(text, pos, 1, Cleared);
    assert text[pos..pos + 5][0] == 'f';
    assert SkipWs(s) == s;
    DispatchBoolean(conv, s);
    assert text[pos..pos + 4][0] == 'f';
  }

  lemma NullAt(conv: Converter, text: string, pos: nat)
    requires pos + 4 <= |text| && text[pos..pos + 4] == "null"
    ensures ValueStep(conv, Cursor(text, pos, 1, Cleared)) == Reply(0, Null, Cursor(text, pos + 4, 1, Cleared))
  {
    var s := Cursor(text, pos, 1, Cleared);
    assert text[pos..pos + 4][0] == 'n';
    assert SkipWs(s) == s;
    DispatchNull(conv, s);
  }

  /** `{` followed directly by a key starts on the members of an object. */
  lemma ObjectBraces(conv: Converter, text: string)
    requires 2 <= |text| && text[0] == '{' && text[1] == '"'
    ensures ObjectStep(conv, Cursor(text, 0, 1, Cleared)) == MembersStep(conv, Cursor(text, 1, 1, Cleared), map[])
  {
    TakesAt(text, 0, '{');
    MissesAt(text, 1, '}');
  }

  lemma ObjectOpens(conv: Converter, text: string)
    requires 2 <= |text| && text[0] == '{' && text[1] == '"'
    ensures ValueStep(conv, Cursor(text, 0, 1, Cleared)) == MembersStep(conv, Cursor(text, 1, 1, Cleared), map[])
  {
    var s := Cursor(text, 0, 1, Cleared);
    assert SkipWs(s) == s;
    DispatchObject(conv, s);
    ObjectBraces(conv, text);
  }

  /** `[` followed directly by anything but `]` and white space starts on the elements of an array. */
  lemma ArrayBrackets(conv: Converter, text: string)
    requires 2 <= |text| && text[0] == '[' && text[1] != ']' && !IsSpace(text[1])
    ensures ArrayStep(conv, Cursor(text, 0, 1, Cleared)) == ElementsStep(conv, Cursor(text, 1, 1, Cleared), [])
  {
    TakesAt(text, 0, '[');
    assert SkipWs(Cursor(text, 1, 1, Cleared)) == Cursor(text, 1, 1, Cleared);
    MissesAt(text, 1, ']');
  }

  lemma ArrayOpens(conv: Converter, text: string)
    requires 2 <= |text| && text[0] == '[' && text[1] != ']' && !IsSpace(text[1])
    ensures ValueStep(conv, Cursor(text, 0, 1, Cleared)) == ElementsStep(conv, Cursor(text, 1, 1, Cleared), [])
  {
    var s := Cursor(text, 0, 1, Cleared);
    assert SkipWs(s) == s;
    DispatchArray(conv, s);
    ArrayBrackets(conv, text);
  }

  /** A member `"a":` and a value standing at `pos`, with the value read as `v`. */
  lemma ShortMemberAt(conv: Converter, text: string, pos: nat, members: map<string, Value>, v: Reply<Value>)
    requires pos + 4 <= |text| && text[pos..pos + 3] == "\"a\"" && text[pos + 3] == ':'
    requires v == ValueStep(conv, Cursor(text, pos + 4, 1, Cleared)) && v.status == 0
    ensures MembersStep(conv, Cursor(text, pos, 1, Cleared), members) == MemberNext(conv, v.st, members["a" := v.value])
  {
    ShortKeyAt(text, pos);
    TakesAt(text, pos + 3, ':');
    MemberStored(conv, Cursor(text, pos, 1, Cleared), members);
  }

  /** A `,` at `pos` followed directly by a further key. */
  lemma CommaThenKeyAt(conv: Converter, text: string, pos: nat, members: map<string, Value>)
    requires pos + 2 <= |text| && text[pos] == ',' && text[pos + 1] == '"'
    ensures MemberNext(conv, Cursor(text, pos, 1, Cleared), members) == MembersStep(conv, Cursor(text, pos + 1, 1, Cleared), members)
  {
    MissesAt(text, pos, '}');
    TakesAt(text, pos, ',');
    MissesAt(text, pos + 1, '}');
  }

  /** A `}` at `pos` closing the object. */
  lemma CloseAt(conv: Converter, text: string, pos: nat, members: map<string, Value>)
    requires pos < |text| && text[pos] == '}'
    ensures MemberNext(conv, Cursor(text, pos, 1, Cleared), members) == Reply(0, Object(members), Cursor(text, pos + 1, 1, Cleared))
  {
    assert SkipWs(Cursor(text, pos, 1, Cleared)) == Cursor(text, pos, 1, Cleared);
    MemberClose(conv, Cursor(text, pos, 1, Cleared), members);
  }

  /** A document whose value starts at the first character. */
  lemma DocumentAtStart(conv: Converter, text: string)
    requires 1 <= |text| && !IsSpace(text[0])
    ensures RunParse(conv, text, 1).1 == ValueStep(conv, Cursor(text, 0, 1, Cleared)).st
    ensures var v := ValueStep(conv, Cursor(text, 0, 1, Cleared));
      RunParse(conv, text, 1).0 == if v.status == 0 then Success(v.value) else Failure(v.st.error.Message(), v.st.line)
  {
    assert SkipWs(Cursor(text, 0, 1, Cleared)) == Cursor(text, 0, 1, Cleared);
  }

  // {"a":true,"a":false}: a key written twice.

  predicate IsDuplicateKeyText(text: string) {
    text == "{\"a\":true,\"a\":false}"
  }

  lemma DuplicateKeyShape(text: string)
    requires IsDuplicateKeyText(text)
    ensures |text| == 20 && text[0] == '{' && text[1] == '"'
    ensures text[1..4] == "\"a\"" && text[4] == ':' && text[5..9] == "true" && text[9] == ',' && text[10] == '"'
    ensures text[10..13] == "\"a\"" && text[13] == ':' && text[14..19] == "false" && text[19] == '}'
  {
    assert text == "{" + "\"a\"" + ":" + "true" + "," + "\"a\"" + ":" + "false" + "}";
  }

  /** The member `"a":true` followed by a comma and a further key. */
  lemma FirstMemberTrue(conv: Converter, text: string)
    requires 11 <= |text| && text[1..4] == "\"a\"" && text[4] == ':' && text[5..9] == "true"
    requires text[9] == ',' && text[10] == '"'
    ensures MembersStep(conv, Cursor(text, 1, 1, Cleared), map[])
         == MembersStep(conv, Cursor(text, 10, 1, Cleared), map["a" := Boolean(true)])
  {
    TrueAt(conv, text, 5);
    ShortMemberAt(conv, text, 1, map[], ValueStep(conv, Cursor(text, 5, 1, Cleared)));
    CommaThenKeyAt(conv, text, 9, map["a" := Boolean(true)]);
  }

  /** The member `"a":false` closing the object at the end of the text. */
  lemma LastMemberFalse(conv: Converter, text: string, members: map<string, Value>)
    requires |text| == 20 && text[10..13] == "\"a\"" && text[13] == ':' && text[14..19] == "false" && text[19] == '}'
    ensures MembersStep(conv, Cursor(text, 10, 1, Cleared), members)
         == Reply(0, Object(members["a" := Boolean(false)]), Cursor(text, 20, 1, Cleared))
  {
    FalseAt(conv, text, 14);
    ShortMemberAt(conv, text, 10, members, ValueStep(conv, Cursor(text, 14, 1, Cleared)));
    CloseAt(conv, text, 19, members["a" := Boolean(false)]);
  }

  lemma LastWriteWins()
    ensures map["a" := Boolean(true)]["a" := Boolean(false)] == map["a" := Boolean(false)]
  {
  }

  /** The whole object, read from the characters of the text. */
  lemma DuplicateKeyObject(conv: Converter, text: string)
    requires |text| == 20 && text[0] == '{' && text[1] == '"'
    requires text[1..4] == "\"a\"" && text[4] == ':' && text[5..9] == "true" && text[9] == ',' && text[10] == '"'
    requires text[10..13] == "\"a\"" && text[13] == ':' && text[14..19] == "false" && text[19] == '}'
    ensures ValueStep(conv, Cursor(text, 0, 1, Cleared)) == Reply(0, Object(map["a" := Boolean(false)]), Cursor(text, 20, 1, Cleared))
  {
    ObjectOpens(conv, text);
    FirstMemberTrue(conv, text);
    LastMemberFalse(conv, text, map["a" := Boolean(true)]);
    LastWriteWins();
  }

  /** A key that appears twice keeps the value written last. */
  lemma DuplicateKeyLastWins(conv: Converter, text: string)
    requires IsDuplicateKeyText(text)
    ensures RunParse(conv, text, 1).0 == Success(Object(map["a" := Boolean(false)]))
  {
    DuplicateKeyShape(text);
    DuplicateKeyObject(conv, text);
    DocumentAtStart(conv, text);
  }

  // [true,]: a trailing comma in an array.

  predicate IsArrayCommaText(text: string) {
    text == "[true,]"
  }

  lemma ArrayCommaShape(text: string)
    requires IsArrayCommaText(text)
    ensures |text| == 7 && text[0] == '[' && text[1] == 't' && text[1..5] == "true" && text[5] == ',' && text[6] == ']'
  {
    assert text == "[" + "true" + "," + "]";
  }

  /** The element `true` and its comma. */
  lemma ArrayCommaFirst(conv: Converter, text: string)
    requires |text| == 7 && text[1..5] == "true" && text[5] == ','
    ensures ElementsStep(conv, Cursor(text, 1, 1, Cleared), []) == ElementsStep(conv, Cursor(text, 6, 1, Cleared), [Boolean(true)])
  {
    TrueAt(conv, text, 1);
    ElementRead(conv, Cursor(text, 1, 1, Cleared), []);
    assert [] + [Boolean(true)] == [Boolean(true)];
    assert SkipWs(Cursor(text, 5, 1, Cleared)) == Cursor(text, 5, 1, Cleared);
    ElementNext(conv, Cursor(text, 5, 1, Cleared), [Boolean(true)]);
  }

  /** After `true,` the closing `]` is where a value should be. */
  lemma ArrayCommaElements(conv: Converter, text: string)
    requires |text| == 7 && text[1..5] == "true" && text[5] == ',' && text[6] == ']'
    ensures ElementsStep(conv, Cursor(text, 1, 1, Cleared), []) == Reply(-1, Null, Cursor(text, 6, 1, UnexpectedCharacter))
  {
    ArrayCommaFirst(conv, text);
    var s := Cursor(text, 6, 1, Cleared);
    assert SkipWs(s) == s;
    DispatchStray(conv, s);
    ElementErrors(conv, s, [Boolean(true)]);
  }

  /** `[true,]` fails where a value should follow the comma, with `unexpected_character`, not
      with `trailing_comma`. */
  lemma ArrayTrailingComma(conv: Converter, text: string)
    requires IsArrayCommaText(text)
    ensures RunParse(conv, text, 1).0 == Failure(UnexpectedCharacter.Message(), 1)
  {
    ArrayCommaShape(text);
    ArrayOpens(conv, text);
    ArrayCommaElements(conv, text);
    DocumentAtStart(conv, text);
  }

  // {"a":null,}: a trailing comma in an object.

  predicate IsObjectCommaText(text: string) {
    text == "{\"a\":null,}"
  }

  lemma ObjectCommaShape(text: string)
    requires IsObjectCommaText(text)
    ensures |text| == 11 && text[0] == '{' && text[1] == '"'
    ensures text[1..4] == "\"a\"" && text[4] == ':' && text[5..9] == "null" && text[9] == ',' && text[10] == '}'
  {
    assert text == "{" + "\"a\"" + ":" + "null" + "," + "}";
  }

  /** A `,` at `pos` followed directly by `}`: a trailing comma, reported just past the `}`. */
  lemma CommaThenCloseAt(conv: Converter, text: string, pos: nat, members: map<string, Value>)
    requires pos + 2 <= |text| && text[pos] == ',' && text[pos + 1] == '}'
    ensures MemberNext(conv, Cursor(text, pos, 1, Cleared), members) == Reply(-1, Null, Cursor(text, pos + 2, 1, TrailingComma))
  {
    MissesAt(text, pos, '}');
    TakesAt(text, pos, ',');
    TakesAt(text, pos + 1, '}');
  }

  /** After `"a":null,` the closing `}` is reported as a trailing comma just past it. */
  lemma ObjectCommaMembers(conv: Converter, text: string)
    requires |text| == 11 && text[1..4] == "\"a\"" && text[4] == ':' && text[5..9] == "null"
    requires text[9] == ',' && text[10] == '}'
    ensures MembersStep(conv, Cursor(text, 1, 1, Cleared), map[]) == Reply(-1, Null, Cursor(text, 11, 1, TrailingComma))
  {
    NullAt(conv, text, 5);
    ShortMemberAt(conv, text, 1, map[], ValueStep(conv, Cursor(text, 5, 1, Cleared)));
    CommaThenCloseAt(conv, text, 9, map["a" := Null]);
  }

  /** `{"a":null,}` fails with `trailing_comma` on line 1. */
  lemma ObjectTrailingComma(conv: Converter, text: string)
    requires IsObjectCommaText(text)
    ensures RunParse(conv, text, 1).0 == Failure(TrailingComma.Message(), 1)
  {
    ObjectCommaShape(text);
    ObjectOpens(conv, text);
    ObjectCommaMembers(conv, text);
    DocumentAtStart(conv, text);
  }

  // "[\n\n x]": an error after two newlines.

  predicate IsErrorLineText(text: string) {
    text == "[\n\n x]"
  }

  lemma ErrorLineShape(text: string)
    requires IsErrorLineText(text)
    ensures |text| == 6 && text[0] == '[' && text[1] == '\n' && text[2] == '\n' && text[3] == ' ' && text[4] == 'x'
  {
  }

  /** Two newlines and a space after `[` take the cursor to line 3. */
  lemma ErrorLineSkip(text: string)
    requires 5 <= |text| && text[1] == '\n' && text[2] == '\n' && text[3] == ' ' && text[4] == 'x'
    ensures SkipWs(Cursor(text, 1, 1, Cleared)) == Cursor(text, 4, 3, Cleared)
  {
    assert SkipWs(Cursor(text, 4, 3, Cleared)) == Cursor(text, 4, 3, Cleared);
    assert SkipWs(Cursor(text, 3, 3, Cleared)) == Cursor(text, 4, 3, Cleared);
    assert SkipWs(Cursor(text, 2, 2, Cleared)) == Cursor(text, 4, 3, Cleared);
  }

  lemma ErrorLineOpens(conv: Converter, text: string)
    requires 5 <= |text| && text[0] == '[' && text[1] == '\n' && text[2] == '\n' && text[3] == ' ' && text[4] == 'x'
    ensures ValueStep(conv, Cursor(text, 0, 1, Cleared)) == ElementsStep(conv, Cursor(text, 4, 3, Cleared), [])
  {
    var s := Cursor(text, 0, 1, Cleared);
    assert SkipWs(s) == s;
    DispatchArray(conv, s);
    TakesAt(text, 0, '[');
    ErrorLineSkip(text);
    TryConsumeMisses(Cursor(text, 1, 1, Cleared), ']');
  }

  /** The stray `x` where the first element should be. */
  lemma StrayElementAt(conv: Converter, text: string, pos: nat, line: int)
    requires pos < |text| && text[pos] == 'x'
    ensures ElementsStep(conv, Cursor(text, pos, line, Cleared), []) == Reply(-1, Null, Cursor(text, pos, line, UnexpectedCharacter))
  {
    var x := Cursor(text, pos, line, Cleared);
    assert SkipWs(x) == x;
    DispatchStray(conv, x);
    ElementErrors(conv, x, []);
  }

  lemma ErrorLineElements(conv: Converter, text: string)
    requires 5 <= |text| && text[0] == '[' && text[1] == '\n' && text[2] == '\n' && text[3] == ' ' && text[4] == 'x'
    ensures ValueStep(conv, Cursor(text, 0, 1, Cleared)) == Reply(-1, Null, Cursor(text, 4, 3, UnexpectedCharacter))
  {
    ErrorLineOpens(conv, text);
    StrayElementAt(conv, text, 4, 3);
  }

  /** The newlines skipped as whitespace before a stray character are counted: the error is on
      line 3. */
  lemma ErrorAfterTwoNewlines(conv: Converter, text: string)
    requires IsErrorLineText(text)
    ensures RunParse(conv, text, 1).0 == Failure(UnexpectedCharacter.Message(), 3)
  {
    ErrorLineShape(text);
    ErrorLineElements(conv, text);
    DocumentAtStart(conv, text);
  }

  /** One parser used twice: the second call carries on counting lines from where the first
      stopped, while a fresh parser would report line 2 for the same text. */
  method ParserKeepsCounting(toDouble: Converter) returns (first: ParseResult, second: ParseResult, other: ParseResult)
    ensures first == Failure(UnexpectedCharacter.Message(), 2)
    ensures second == Failure(UnexpectedCharacter.Message(), 3)
    ensures other == Failure(UnexpectedCharacter.Message(), 2)
  {
    NewlineOnly(toDouble, 1);
    NewlineThenStray(toDouble, 2);
    NewlineThenStray(toDouble, 1);
    var parser := new Parser(toDouble);
    first := parser.Parse("\n");
    second := parser.Parse("\nx");
    other := Edenjson.Parse("\nx", toDouble);
  }

  // [1, 3, 2]: an array of numbers, read in order.

  predicate IsNumberArrayText(text: string) {
    text == "[1, 3, 2]"
  }

  lemma NumberArrayShape(text: string)
    requires IsNumberArrayText(text)
    ensures |text| == 9 && text[0] == '[' && text[8] == ']'
    ensures text[1] == '1' && text[2] == ',' && text[3] == ' ' && text[1..2] == "1"
    ensures text[4] == '3' && text[5] == ',' && text[6] == ' ' && text[4..5] == "3"
    ensures text[7] == '2' && text[7..8] == "2"
  {
    assert text == "[" + "1" + ", " + "3" + ", " + "2" + "]";
  }

  /** A one-digit number, possibly after one space, is handed to the converter alone. */
  lemma DigitAt(conv: Converter, text: string, pos: nat, d: Double)
    requires pos + 1 < |text| && IsDigit(text[pos]) && !IsNumberChar(text[pos + 1])
    requires conv(text[pos..pos + 1]) == Some(d)
    ensures NumberStep(conv, Cursor(text, pos, 1, Cleared)) == Reply(0, Number(d), Cursor(text, pos + 1, 1, Cleared))
  {
    assert NumberEnd(text, pos + 1) == pos + 1;
    assert NumberEnd(text, pos) == pos + 1;
  }

  lemma NumberElementAt(conv: Converter, text: string, pos: nat, d: Double)
    requires pos + 1 < |text| && IsDigit(text[pos]) && !IsNumberChar(text[pos + 1])
    requires conv(text[pos..pos + 1]) == Some(d)
    ensures ValueStep(conv, Cursor(text, pos, 1, Cleared)) == Reply(0, Number(d), Cursor(text, pos + 1, 1, Cleared))
  {
    var s := Cursor(text, pos, 1, Cleared);
    assert SkipWs(s) == s;
    DispatchNumber(conv, s);
    DigitAt(conv, text, pos, d);
  }

  lemma SpacedNumberElementAt(conv: Converter, text: string, pos: nat, d: Double)
    requires pos + 2 < |text| && text[pos] == ' ' && IsDigit(text[pos + 1]) && !IsNumberChar(text[pos + 2])
    requires conv(text[pos + 1..pos + 2]) == Some(d)
    ensures ValueStep(conv, Cursor(text, pos, 1, Cleared)) == Reply(0, Number(d), Cursor(text, pos + 2, 1, Cleared))
  {
    var s := Cursor(text, pos, 1, Cleared);
    assert SkipWs(s) == Cursor(text, pos + 1, 1, Cleared);
    DispatchNumber(conv, s);
    DigitAt(conv, text, pos + 1, d);
  }

  /** An element after a space, and the comma after it. */
  lemma SpacedElementThenComma(conv: Converter, text: string, pos: nat, gathered: seq<Value>, d: Double)
    requires pos + 3 < |text| && text[pos] == ' ' && IsDigit(text[pos + 1]) && text[pos + 2] == ','
    requires conv(text[pos + 1..pos + 2]) == Some(d)
    ensures ElementsStep(conv, Cursor(text, pos, 1, Cleared), gathered)
         == ElementsStep(conv, Cursor(text, pos + 3, 1, Cleared), gathered + [Number(d)])
  {
    SpacedNumberElementAt(conv, text, pos, d);
    ElementRead(conv, Cursor(text, pos, 1, Cleared), gathered);
    assert SkipWs(Cursor(text, pos + 2, 1, Cleared)) == Cursor(text, pos + 2, 1, Cleared);
    ElementNext(conv, Cursor(text, pos + 2, 1, Cleared), gathered + [Number(d)]);
  }

  /** The first element and its comma. */
  lemma NumberArrayFirst(conv: Converter, text: string, one: Double)
    requires 4 <= |text| && text[1] == '1' && text[2] == ',' && conv(text[1..2]) == Some(one)
    ensures ElementsStep(conv, Cursor(text, 1, 1, Cleared), []) == ElementsStep(conv, Cursor(text, 3, 1, Cleared), [Number(one)])
  {
    NumberElementAt(conv, text, 1, one);
    ElementRead(conv, Cursor(text, 1, 1, Cleared), []);
    assert [] + [Number(one)] == [Number(one)];
    assert SkipWs(Cursor(text, 2, 1, Cleared)) == Cursor(text, 2, 1, Cleared);
    ElementNext(conv, Cursor(text, 2, 1, Cleared), [Number(one)]);
  }

  /** The last element, after a space, and the closing `]`. */
  lemma NumberArrayLast(conv: Converter, text: string, gathered: seq<Value>, two: Double)
    requires |text| == 9 && text[6] == ' ' && text[7] == '2' && text[8] == ']' && conv(text[7..8]) == Some(two)
    ensures ElementsStep(conv, Cursor(text, 6, 1, Cleared), gathered)
         == Reply(0, Array(gathered + [Number(two)]), Cursor(text, 9, 1, Cleared))
  {
    SpacedNumberElementAt(conv, text, 6, two);
    ElementRead(conv, Cursor(text, 6, 1, Cleared), gathered);
    assert SkipWs(Cursor(text, 8, 1, Cleared)) == Cursor(text, 8, 1, Cleared);
    ElementClose(conv, Cursor(text, 8, 1, Cleared), gathered + [Number(two)]);
  }

  /** The second and last elements, after the elements gathered. */
  lemma NumberArrayRest(conv: Converter, text: string, gathered: seq<Value>, three: Double, two: Double)
    requires |text| == 9 && text[3] == ' ' && text[4] == '3' && text[5] == ',' && conv(text[4..5]) == Some(three)
    requires text[6] == ' ' && text[7] == '2' && text[8] == ']' && conv(text[7..8]) == Some(two)
    ensures ElementsStep(conv, Cursor(text, 3, 1, Cleared), gathered)
         == Reply(0, Array(gathered + [Number(three)] + [Number(two)]), Cursor(text, 9, 1, Cleared))
  {
    NumberArrayLast(conv, text, gathered + [Number(three)], two);
    SpacedElementThenComma(conv, text, 3, gathered, three);
  }

  /** The elements of `[1, 3, 2]`, gathered in order. */
  lemma NumberArrayElements(conv: Converter, text: string, one: Double, three: Double, two: Double)
    requires |text| == 9 && text[1] == '1' && text[2] == ',' && conv(text[1..2]) == Some(one)
    requires text[3] == ' ' && text[4] == '3' && text[5] == ',' && conv(text[4..5]) == Some(three)
    requires text[6] == ' ' && text[7] == '2' && text[8] == ']' && conv(text[7..8]) == Some(two)
    ensures ElementsStep(conv, Cursor(text, 1, 1, Cleared), [])
         == Reply(0, Array([Number(one), Number(three), Number(two)]), Cursor(text, 9, 1, Cleared))
  {
    NumberArrayRest(conv, text, [Number(one)], three, two);
    assert [Number(one)] + [Number(three)] + [Number(two)] == [Number(one), Number(three), Number(two)];
    NumberArrayFirst(conv, text, one);
  }

  /** The whole array `[1, 3, 2]`. */
  lemma NumberArrayValue(conv: Converter, text: string, one: Double, three: Double, two: Double)
    requires IsNumberArrayText(text)
    requires conv("1") == Some(one) && conv("3") == Some(three) && conv("2") == Some(two)
    ensures ValueStep(conv, Cursor(text, 0, 1, Cleared))
         == Reply(0, Array([Number(one), Number(three), Number(two)]), Cursor(text, 9, 1, Cleared))
  {
    NumberArrayShape(text);
    ArrayOpens(conv, text);
    NumberArrayElements(conv, text, one, three, two);
  }

  /** `[1, 3, 2]` reads as an array whose elements, and whose iteration, follow the text's order. */
  lemma ArrayElementsInOrder(conv: Converter, text: string, one: Double, three: Double, two: Double)
    requires IsNumberArrayText(text)
    requires conv("1") == Some(one) && conv("3") == Some(three) && conv("2") == Some(two)
    ensures RunParse(conv, text, 1).0 == Success(Array([Number(one), Number(three), Number(two)]))
    ensures RunParse(conv, text, 1).0.document.EachElement() == [Number(one), Number(three), Number(two)]
  {
    NumberArrayValue(conv, text, one, three, two);
    assert text[0] == '[';
    DocumentAtStart(conv, text);
  }
}

=== FILE: parser_spec.dfy ===
/** The behaviour of `json_parser`, stated as functions on the parser's state.

    Each member function of the C++ class becomes a function from the state before the call to a
    `Reply`: the status it returns (0 or -1), the value it writes to its `json_value&` out-
    parameter, and the state after the call. The imperative class in module `JsonParser` is proved
    to compute exactly these functions. */
module ParserSpec {
  import opened Options
  import opened Unicode
  import opened JsonValue
  import opened ParseResults

  /** What `error_` holds: cleared (the empty string), or one of the twelve messages of
      `edenjson::error`, the only texts the parser ever stores there. */
  datatype Error =
    | Cleared
    | UnterminatedString
    | UnexpectedCharacter
    | OpenBraceExpected
    | OpenBracketExpected
    | ClosingBracketExpected
    | DoubleQuoteExpected
    | ColonExpected
    | CommaExpected
    | TrailingComma
    | InvalidNumber
    | InvalidEscape
    | InvalidUnicodeEscape
  {
    /** The text of the message; only a cleared error has the empty text. */
    function Message(): (m: string)
      ensures m == "" <==> this == Cleared
    {
      match this
      case Cleared => ""
      case UnterminatedString => "Unterminated string"
      case UnexpectedCharacter => "Unexpected character"
      case OpenBraceExpected => "'{' expected"
      case OpenBracketExpected => "'[' expected"
      case ClosingBracketExpected => "']' expected"
      case DoubleQuoteExpected => "'\"' expected"
      case ColonExpected => "':' expected"
      case CommaExpected => "',' expected"
      case TrailingComma => "Trailing comma"
      case InvalidNumber => "Invalid number"
      case InvalidEscape => "Invalid escape sequence"
      case InvalidUnicodeEscape => "Invalid unicode escape sequence"
    }
  }

  /** `isspace` in the C locale: space, tab, newline, vertical tab, form feed, carriage return. */
  predicate IsSpace(c: char) {
    c == ' ' || c == '\t' || c == '\n' || c == 11 as char || c == 12 as char || c == '\r'
  }

  /** `isdigit` in the C locale. */
  predicate IsDigit(c: char) {
    '0' <= c <= '9'
  }

  /** The characters the number tokenizer accepts, in any order and number. */
  predicate IsNumberChar(c: char) {
    IsDigit(c) || c == '-' || c == '.' || c == 'e' || c == 'E'
  }

  /** The parser's fields. `json_` is a view into the text handed to `parse`: the model keeps
      that text and how far the view's start has been advanced by `remove_prefix`, so the
      unconsumed input is `input[pos..]`. */
  datatype Cursor = Cursor(input: string, pos: nat, line: int, error: Error)

  type State = s: Cursor | s.pos <= |s.input| witness Cursor("", 0, 1, Cleared)

  /** What a parsing member function hands back: its status, its out-parameter, its new state. */
  datatype Reply<T> = Reply(status: int, value: T, st: State)

  /** `strtod` with its `ERANGE` and trailing-characters checks: `None` when the conversion fails. */
  type Converter = string -> Option<Double>

  /** The number of newline characters in `s` from position `pos` on. */
  function NewlinesFrom(s: string, pos: nat): nat
    requires pos <= |s|
    decreases |s| - pos
  {
    if pos == |s| then 0 else (if s[pos] == '\n' then 1 else 0) + NewlinesFrom(s, pos + 1)
  }

  /** No newline between `p` and `q`: the count ahead does not change. */
  lemma {:induction false} NoNewlinesBetween(s: string, p: nat, q: nat)
    requires p <= q <= |s|
    requires forall i :: p <= i < q ==> s[i] != '\n'
    ensures NewlinesFrom(s, p) == NewlinesFrom(s, q)
    decreases q - p
  {
    if p < q {
      NoNewlinesBetween(s, p + 1, q);
    }
  }

  /** The newlines still ahead of the cursor. */
  function Ahead(st: State): nat {
    NewlinesFrom(st.input, st.pos)
  }

  /** The cursor only moves forward over the same text, the line counter never goes back, and
      it never counts more newlines than the cursor has passed. */
  predicate Advances(before: State, after: State) {
    && after.input == before.input
    && before.pos <= after.pos
    && before.line <= after.line
    && after.line + Ahead(after) <= before.line + Ahead(before)
  }

  /** Every newline the cursor has passed was counted. */
  predicate CountsAll(before: State, after: State) {
    after.line + Ahead(after) == before.line + Ahead(before)
  }

  /** The discipline every parsing member function keeps: status 0 or -1; on success `error_`
      is untouched and every newline passed is counted; on failure `error_` holds one of the
      twelve messages. */
  predicate Lawful<T>(before: State, r: Reply<T>) {
    && (r.status == 0 || r.status == -1)
    && Advances(before, r.st)
    && (r.status == 0 ==> r.st.error == before.error && CountsAll(before, r.st))
    && (r.status == -1 ==> r.st.error != Cleared)
  }

  /** Sets `error_` and returns -1, leaving the out-parameter a default (null) value. */
  function Fail(st: State, message: Error): Reply<Value> {
    Reply(-1, Null, st.(error := message))
  }

  /** `skip_whitespace`. */
  function SkipWs(st: State): (r: State)
    ensures r.input == st.input && st.pos <= r.pos
    ensures r.pos == |r.input| || !IsSpace(r.input[r.pos])
    ensures forall i :: st.pos <= i < r.pos ==> IsSpace(st.input[i])
    ensures CountsAll(st, r) && st.line <= r.line
    ensures r.error == st.error
    decreases |st.input| - st.pos
  {
    if st.pos < |st.input| && IsSpace(st.input[st.pos]) then
      SkipWs(st.(pos := st.pos + 1, line := if st.input[st.pos] == '\n' then st.line + 1 else st.line))
    else
      st
  }

  /** `peek`: the next character, or NUL at the end of the input. */
  function PeekChar(st: State): char {
    if st.pos == |st.input| then '\0' else st.input[st.pos]
  }

  /** `consume`: the next character and the state past it; NUL and no move at the end. */
  function ConsumeStep(st: State): (r: (char, State))
    ensures Advances(st, r.1) && r.1.error == st.error && r.1.line == st.line
    ensures r.0 != '\n' ==> CountsAll(st, r.1)
    ensures r.0 != '\0' ==> r.1.pos == st.pos + 1
    ensures r.0 == PeekChar(st)
    ensures st.pos < |st.input| ==> r.1 == st.(pos := st.pos + 1)
    ensures st.pos == |st.input| ==> r.1 == st
  {
    if st.pos == |st.input| then ('\0', st) else (st.input[st.pos], st.(pos := st.pos + 1))
  }

  /** `try_consume`: skips whitespace, then takes `expected` if it comes next. */
  function TryConsumeStep(st: State, expected: char): (r: (bool, State))
    ensures Advances(st, r.1) && CountsAll(st, r.1) && r.1.error == st.error
    ensures r.0 ==> r.1.pos > st.pos
  {
    var s := SkipWs(st);
    if s.pos < |s.input| && s.input[s.pos] == expected then (true, s.(pos := s.pos + 1)) else (false, s)
  }

  /** `parse_value`: dispatch on the first character after whitespace. */
  function ValueStep(conv: Converter, st: State): (r: Reply<Value>)
    ensures Lawful(st, r)
    ensures r.status == 0 ==> r.st.pos > st.pos
    ensures r.status != 0 ==> r.value == Null
    decreases |st.input| - st.pos, 2
  {
    var s := SkipWs(st);
    var c := PeekChar(s);
    if c == '{' then ObjectStep(conv, s)
    else if c == '[' then ArrayStep(conv, s)
    else if c == '"' then StringStep(s)
    else if IsDigit(c) || c == '-' then NumberStep(conv, s)
    else if c == 't' || c == 'f' then BooleanStep(s)
    else if c == 'n' then NullStep(s)
    else Fail(s, UnexpectedCharacter)
  }

  /** `parse_object` up to its loop. */
  function ObjectStep(conv: Converter, st: State): (r: Reply<Value>)
    ensures Lawful(st, r)
    ensures r.status == 0 ==> r.st.pos > st.pos && r.value.Object?
    ensures r.status != 0 ==> r.value == Null
    decreases |st.input| - st.pos, 1
  {
    var (open, s1) := TryConsumeStep(st, '{');
    if !open then Fail(s1, OpenBraceExpected)
    else
      var (close, s2) := TryConsumeStep(s1, '}');
      if close then Reply(0, Object(map[]), s2)
      else MembersStep(conv, s2, map[])
  }

  /** One pass of the loop of `parse_object`, with the members gathered so far: a key, `:` and
      a value, stored under the key so that a key seen again overwrites its earlier value. */
  function MembersStep(conv: Converter, st: State, members: map<string, Value>): (r: Reply<Value>)
    ensures Lawful(st, r)
    ensures r.status == 0 ==> r.st.pos > st.pos && r.value.Object?
    ensures r.status != 0 ==> r.value == Null
    decreases |st.input| - st.pos, 3
  {
    var key := StringStep(st);
    if key.status != 0 then Reply(-1, Null, key.st)
    else
      var (colon, s1) := TryConsumeStep(key.st, ':');
      if !colon then Fail(s1, ColonExpected)
      else
        var v := ValueStep(conv, s1);
        if v.status != 0 then Reply(-1, Null, v.st)
        else MemberNext(conv, v.st, members[key.value.str := v.value])
  }

  /** The rest of that pass, after a member: `}` ends the object, `,` leads to the next member,
      and a `,` followed by `}` is a trailing comma. */
  function MemberNext(conv: Converter, st: State, members: map<string, Value>): (r: Reply<Value>)
    ensures Lawful(st, r)
    ensures r.status == 0 ==> r.st.pos > st.pos && r.value.Object?
    ensures r.status != 0 ==> r.value == Null
    decreases |st.input| - st.pos, 4
  {
    var (close, s1) := TryConsumeStep(st, '}');
    if close then Reply(0, Object(members), s1)
    else
      var (comma, s2) := TryConsumeStep(s1, ',');
      if !comma then Fail(s2, CommaExpected)
      else
        var (trailing, s3) := TryConsumeStep(s2, '}');
        if trailing then Fail(s3, TrailingComma)
        else MembersStep(conv, s3, members)
  }

  /** `parse_array` up to its loop. */
  function ArrayStep(conv: Converter, st: State): (r: Reply<Value>)
    ensures Lawful(st, r)
    ensures r.status == 0 ==> r.st.pos > st.pos && r.value.Array?
    ensures r.status != 0 ==> r.value == Null
    decreases |st.input| - st.pos, 1
  {
    var (open, s1) := TryConsumeStep(st, '[');
    if !open then Fail(s1, OpenBracketExpected)
    else
      var s2 := SkipWs(s1);
      var (close, s3) := TryConsumeStep(s2, ']');
      if close then Reply(0, Array([]), s3)
      else ElementsStep(conv, s3, [])
  }

  /** One pass of the loop of `parse_array`, with the elements gathered so far, in order: an
      element, appended after them. */
  function ElementsStep(conv: Converter, st: State, elements: seq<Value>): (r: Reply<Value>)
    ensures Lawful(st, r)
    ensures r.status == 0 ==> r.st.pos > st.pos && r.value.Array?
    ensures r.status != 0 ==> r.value == Null
    decreases |st.input| - st.pos, 3
  {
    var v := ValueStep(conv, st);
    if v.status != 0 then Reply(-1, Null, v.st)
    else ElementsNext(conv, v.st, elements + [v.value])
  }

  /** The rest of that pass, after an element: `]` ends the array and `,` leads to the next
      element. */
  function ElementsNext(conv: Converter, st: State, elements: seq<Value>): (r: Reply<Value>)
    ensures Lawful(st, r)
    ensures r.status == 0 ==> r.st.pos > st.pos && r.value.Array?
    ensures r.status != 0 ==> r.value == Null
    decreases |st.input| - st.pos, 4
  {
    var (close, s1) := TryConsumeStep(st, ']');
    if close then Reply(0, Array(elements), s1)
    else
      var (comma, s2) := TryConsumeStep(s1, ',');
      if !comma then Fail(s2, CommaExpected)
      else ElementsStep(conv, s2, elements)
  }

  /** `parse_string`. */
  function StringStep(st: State): (r: Reply<Value>)
    ensures Lawful(st, r)
    ensures r.st.line == SkipWs(st).line
    ensures r.status == 0 ==> r.st.pos > st.pos && r.value.String?
    ensures r.status != 0 ==> r.value == Null
    ensures PeekChar(SkipWs(st)) != '"' ==> r == Fail(SkipWs(st), DoubleQuoteExpected)
  {
    var (open, s1) := TryConsumeStep(st, '"');
    if !open then Fail(s1, DoubleQuoteExpected)
    else CharsStep(s1, "")
  }

  /** One pass of the loop of `parse_string`, with the bytes decoded so far. */
  function CharsStep(st: State, buffer: string): (r: Reply<Value>)
    ensures Lawful(st, r) && r.st.line == st.line
    ensures r.status == 0 ==> r.st.pos > st.pos && r.value.String?
    ensures r.status != 0 ==> r.value == Null
    decreases |st.input| - st.pos
  {
    var (c, s1) := ConsumeStep(st);
    if c == '"' then Reply(0, String(buffer), s1)
    else if c == '\0' then Fail(s1, UnterminatedString)
    else if c == '\n' then Fail(s1, UnterminatedString)
    else if c == '\\' then
      var e := EscapeStep(s1);
      if e.status != 0 then Reply(-1, Null, e.st)
      else CharsStep(e.st, buffer + e.value)
    else CharsStep(s1, buffer + [c])
  }

  /** The byte each of the eight one-character escapes stands for. */
  function Unescape(c: char): (r: Option<char>)
    ensures r.Some? <==> c in {'"', '\\', '/', 'b', 'f', 'n', 'r', 't'}
  {
    if c == '"' then Some('"')
    else if c == '\\' then Some('\\')
    else if c == '/' then Some('/')
    else if c == 'b' then Some(8 as char)
    else if c == 'f' then Some(12 as char)
    else if c == 'n' then Some('\n')
    else if c == 'r' then Some('\r')
    else if c == 't' then Some('\t')
    else None
  }

  /** The `switch` after a backslash: the bytes to append. */
  function EscapeStep(st: State): (r: Reply<string>)
    ensures Lawful(st, r) && r.st.line == st.line
    ensures r.status == 0 ==> r.st.pos > st.pos
  {
    var (c, s1) := ConsumeStep(st);
    if Unescape(c).Some? then Reply(0, [Unescape(c).value], s1)
    else if c == 'u' then UnicodeEscapeStep(s1)
    else Reply(-1, "", s1.(error := InvalidEscape))
  }

  /** The `\u` case: one code unit, or a high surrogate followed by `\u` and a low surrogate,
      appended as UTF-8. */
  function UnicodeEscapeStep(st: State): (r: Reply<string>)
    ensures Lawful(st, r) && r.st.line == st.line
    ensures r.status == 0 ==> r.st.pos > st.pos
    ensures r.status != 0 ==> r.st.error == InvalidUnicodeEscape
  {
    var high := CodeUnitStep(st);
    if high.status != 0 then Reply(-1, "", high.st)
    else if IsHighSurrogate(high.value) then SurrogateTailStep(high.value, high.st)
    else Reply(0, Utf8Encode(high.value), high.st)
  }

  /** The `\u` and the low surrogate that must follow a high surrogate, and the UTF-8 encoding of
      the code point the two combine to. */
  function SurrogateTailStep(high: int, st: State): (r: Reply<string>)
    requires IsHighSurrogate(high)
    ensures Lawful(st, r) && r.st.line == st.line
    ensures r.status == 0 ==> r.st.pos > st.pos
    ensures r.status != 0 ==> r.st.error == InvalidUnicodeEscape
  {
    var (c1, s1) := ConsumeStep(st);
    if c1 != '\\' then Reply(-1, "", s1.(error := InvalidUnicodeEscape))
    else
      var (c2, s2) := ConsumeStep(s1);
      if c2 != 'u' then Reply(-1, "", s2.(error := InvalidUnicodeEscape))
      else
        var low := CodeUnitStep(s2);
        if low.status != 0 then Reply(-1, "", low.st)
        else if !IsLowSurrogate(low.value) then Reply(-1, "", low.st.(error := InvalidUnicodeEscape))
        else Reply(0, Utf8Encode(CombineSurrogates(high, low.value)), low.st)
  }

  /** Four hexadecimal digits read one `consume` at a time, and the code unit they denote. */
  function CodeUnitStep(st: State): (r: Reply<int>)
    ensures Lawful(st, r) && r.st.line == st.line
    ensures r.status == 0 ==> r.st.pos == st.pos + 4 && 0 <= r.value <= 0xFFFF
    ensures r.status != 0 ==> r.st.error == InvalidUnicodeEscape
  {
    var h := HexRun(st, 4, "");
    if h.status != 0 then Reply(-1, 0, h.st)
    else
      HexValue4(h.value);
      Reply(0, HexValue(h.value), h.st)
  }

  /** Reads `count` more hexadecimal digits after `digits`. */
  function HexRun(st: State, count: nat, digits: string): (r: Reply<string>)
    requires AllHex(digits)
    ensures Lawful(st, r) && r.st.line == st.line
    ensures r.status == 0 ==> r.st.pos == st.pos + count
    ensures r.status == 0 ==> AllHex(r.value) && |r.value| == |digits| + count
    ensures r.status != 0 ==> r.st.error == InvalidUnicodeEscape
    decreases count
  {
    if count == 0 then Reply(0, digits, st)
    else
      var (c, s1) := ConsumeStep(st);
      if !IsHexDigit(c) then Reply(-1, "", s1.(error := InvalidUnicodeEscape))
      else HexRun(s1, count - 1, digits + [c])
  }

  /** One digit of a run: the character consumed decides between failing and reading on. */
  lemma HexRunStep(st: State, count: nat, digits: string)
    requires AllHex(digits) && count > 0
    ensures var (c, s1) := ConsumeStep(st);
      HexRun(st, count, digits)
        == if IsHexDigit(c) then HexRun(s1, count - 1, digits + [c]) else Reply(-1, "", s1.(error := InvalidUnicodeEscape))
  {
  }

  /** Where the run of number characters that starts at `pos` ends. */
  function NumberEnd(s: string, pos: nat): (end: nat)
    requires pos <= |s|
    ensures pos <= end <= |s|
    ensures forall i :: pos <= i < end ==> IsNumberChar(s[i])
    ensures end == |s| || !IsNumberChar(s[end])
    decreases |s| - pos
  {
    if pos < |s| && IsNumberChar(s[pos]) then NumberEnd(s, pos + 1) else pos
  }

  /** `parse_number`: the maximal run of number characters, handed to the converter. */
  function NumberStep(conv: Converter, st: State): (r: Reply<Value>)
    ensures Lawful(st, r)
    ensures r.status == 0 && st.pos < |st.input| && IsNumberChar(st.input[st.pos]) ==> r.st.pos > st.pos
    ensures r.status != 0 ==> r.value == Null
    ensures var end := NumberEnd(st.input, st.pos);
      && r.st.pos == end && r.st.line == st.line
      && (r.status == 0 <==> conv(st.input[st.pos..end]).Some?)
      && (r.status == 0 ==> r.value == Number(conv(st.input[st.pos..end]).value) && r.st.error == st.error)
      && (r.status != 0 ==> r.st.error == InvalidNumber)
  {
    var end := NumberEnd(st.input, st.pos);
    NoNewlinesBetween(st.input, st.pos, end);
    match conv(st.input[st.pos..end])
    case None => Fail(st.(pos := end), InvalidNumber)
    case Some(d) => Reply(0, Number(d), st.(pos := end))
  }

  /** The literal `word` comes next. */
  predicate LiteralAt(st: State, word: string) {
    st.pos + |word| <= |st.input| && st.input[st.pos..st.pos + |word|] == word
  }

  /** Moves past a literal that holds no newline. */
  function SkipLiteral(st: State, word: string): (r: State)
    requires LiteralAt(st, word) && forall i :: 0 <= i < |word| ==> word[i] != '\n'
    ensures Advances(st, r) && CountsAll(st, r) && r.error == st.error && r.pos == st.pos + |word|
  {
    assert forall i :: st.pos <= i < st.pos + |word| ==> st.input[i] == word[i - st.pos];
    NoNewlinesBetween(st.input, st.pos, st.pos + |word|);
    st.(pos := st.pos + |word|)
  }

  /** `parse_boolean`: the literal `true` or `false`. */
  function BooleanStep(st: State): (r: Reply<Value>)
    ensures Lawful(st, r)
    ensures r.status == 0 ==> r.st.pos > st.pos
    ensures r.status != 0 ==> r.value == Null
    ensures LiteralAt(st, "true") ==> r == Reply(0, Boolean(true), st.(pos := st.pos + 4))
    ensures !LiteralAt(st, "true") && LiteralAt(st, "false") ==> r == Reply(0, Boolean(false), st.(pos := st.pos + 5))
    ensures !LiteralAt(st, "true") && !LiteralAt(st, "false") ==> r == Fail(st, UnexpectedCharacter)
  {
    if LiteralAt(st, "true") then Reply(0, Boolean(true), SkipLiteral(st, "true"))
    else if LiteralAt(st, "false") then Reply(0, Boolean(false), SkipLiteral(st, "false"))
    else Fail(st, UnexpectedCharacter)
  }

  /** `parse_null`: the literal `null`. */
  function NullStep(st: State): (r: Reply<Value>)
    ensures Lawful(st, r)
    ensures r.status == 0 ==> r.st.pos > st.pos
    ensures r.status != 0 ==> r.value == Null
    ensures LiteralAt(st, "null") ==> r == Reply(0, Null, st.(pos := st.pos + 4))
    ensures !LiteralAt(st, "null") ==> r == Fail(st, UnexpectedCharacter)
  {
    if LiteralAt(st, "null") then Reply(0, Null, SkipLiteral(st, "null"))
    else Fail(st, UnexpectedCharacter)
  }

  /** `json_parser::parse` on a parser whose line counter stands at `line`: the result, and the
      parser's state afterwards. */
  function RunParse(conv: Converter, text: string, line: int): (r: (ParseResult, State))
    ensures r.1.input == text && line <= r.1.line
    ensures r.0.ToBool() ==> r.0.error == NoError && r.1.error == Cleared
    ensures !r.0.ToBool() ==> r.0.document == Null && r.0.error == ParseError(r.1.error.Message(), r.1.line)
    ensures !r.0.ToBool() ==> r.1.error != Cleared
  {
    var v := ValueStep(conv, SkipWs(Cursor(text, 0, line, Cleared)));
    (if v.status == 0 then Success(v.value) else Failure(v.st.error.Message(), v.st.line), v.st)
  }
}

=== FILE: unicode.dfy ===
/** The arithmetic behind `\u` escapes: hexadecimal code units, UTF-16 surrogate pairs
    (section 2.2 of RFC 2781) and UTF-8 encoding (section 3 of RFC 3629). A byte of the output
    is a `char` whose value is below 256, as a `char` of a C++ `std::string` would be. */
module Unicode {
  import opened Options

  /** `isxdigit` in the C locale. */
  predicate IsHexDigit(c: char) {
    ('0' <= c <= '9') || ('a' <= c <= 'f') || ('A' <= c <= 'F')
  }

  function HexDigitValue(c: char): (r: nat)
    requires IsHexDigit(c)
    ensures r < 16
  {
    if '0' <= c <= '9' then (c - '0') as nat
    else if 'a' <= c <= 'f' then (c - 'a') as nat + 10
    else (c - 'A') as nat + 10
  }

  predicate AllHex(s: string) {
    forall i :: 0 <= i < |s| ==> IsHexDigit(s[i])
  }

  function Pow16(n: nat): (r: nat)
    ensures r >= 1
  {
    if n == 0 then 1 else 16 * Pow16(n - 1)
  }

  /** The number a run of hexadecimal digits denotes, most significant digit first: what
      `strtoul(hex, &end, 16)` yields on digits already checked with `isxdigit`. */
  function HexValue(s: string): (r: nat)
    requires AllHex(s)
    ensures r < Pow16(|s|)
    decreases |s|
  {
    if |s| == 0 then 0
    else HexValue(s[..|s| - 1]) * 16 + HexDigitValue(s[|s| - 1])
  }

  /** Four hexadecimal digits denote a 16-bit code unit. */
  lemma HexValue4(s: string)
    requires AllHex(s) && |s| == 4
    ensures HexValue(s) <= 0xFFFF
  {
    assert Pow16(4) == 0x10000;
  }

  /** The upper-case hexadecimal digit of `d`. */
  function HexDigit(d: nat): (c: char)
    requires d < 16
    ensures IsHexDigit(c) && HexDigitValue(c) == d
  {
    if d < 10 then ('0' as int + d) as char else ('A' as int + d - 10) as char
  }

  /** `n` written with exactly `width` hexadecimal digits, as a `\u` escape spells a code unit. */
  function HexEncode(n: nat, width: nat): (s: string)
    ensures |s| == width && AllHex(s)
  {
    if width == 0 then "" else HexEncode(n / 16, width - 1) + [HexDigit(n % 16)]
  }

  /** Reading back the digits of a number that fits gives the number. */
  lemma {:induction false} HexRoundTrip(n: nat, width: nat)
    requires n < Pow16(width)
    ensures HexValue(HexEncode(n, width)) == n
  {
    if width > 0 {
      var s := HexEncode(n, width);
      assert s[..|s| - 1] == HexEncode(n / 16, width - 1);
      HexRoundTrip(n / 16, width - 1);
    }
  }

  predicate IsHighSurrogate(u: int) { 0xD800 <= u <= 0xDBFF }
  predicate IsLowSurrogate(u: int) { 0xDC00 <= u <= 0xDFFF }

  /** Decoding of a surrogate pair (section 2.2 of RFC 2781): the pair denotes a code point
      above the Basic Multilingual Plane. */
  function CombineSurrogates(high: int, low: int): (cp: int)
    requires IsHighSurrogate(high) && IsLowSurrogate(low)
    ensures 0x10000 <= cp <= 0x10FFFF
  {
    0x10000 + (high - 0xD800) * 0x400 + (low - 0xDC00)
  }

  /** Encoding of a supplementary code point as a surrogate pair (section 2.1 of RFC 2781). */
  function SplitSurrogates(cp: int): (pair: (int, int))
    requires 0x10000 <= cp <= 0x10FFFF
    ensures IsHighSurrogate(pair.0) && IsLowSurrogate(pair.1)
  {
    (0xD800 + (cp - 0x10000) / 0x400, 0xDC00 + (cp - 0x10000) % 0x400)
  }

  lemma CombineThenSplit(high: int, low: int)
    requires IsHighSurrogate(high) && IsLowSurrogate(low)
    ensures SplitSurrogates(CombineSurrogates(high, low)) == (high, low)
  {
    var v := CombineSurrogates(high, low) - 0x10000;
    assert v == (high - 0xD800) * 0x400 + (low - 0xDC00);
    DivModUnique(v, 0x400, high - 0xD800, low - 0xDC00);
  }

  lemma SplitThenCombine(cp: int)
    requires 0x10000 <= cp <= 0x10FFFF
    ensures var (h, l) := SplitSurrogates(cp); CombineSurrogates(h, l) == cp
  {
  }

  /** Quotient and remainder are determined by the decomposition. */
  lemma DivModUnique(x: int, d: int, q: int, r: int)
    requires d > 0 && 0 <= r < d && x == q * d + r
    ensures x / d == q && x % d == r
  {
    var q', r' := x / d, x % d;
    assert (q - q') * d == r' - r;
    if q > q' {
      MulAtLeast(q - q', d);
    } else if q < q' {
      MulAtLeast(q' - q, d);
    }
  }

  lemma MulAtLeast(k: int, d: int)
    requires k >= 1 && d > 0
    ensures k * d >= d
  {
    assert k * d == (k - 1) * d + d;
  }

  /** A byte of output, as a `char`. */
  function Byte(b: int): char
    requires 0 <= b < 256
  {
    b as char
  }

  predicate IsContinuation(c: char) { 0x80 <= c as int <= 0xBF }

  /** The UTF-8 encoding of a code point (section 3 of RFC 3629), as written out by the
      shift-and-mask arithmetic of the parser: `x >> k` is `x / 2^k`, `x & (2^k - 1)` is
      `x % 2^k`, and `|` on disjoint bits is `+`. A value above 0x10FFFF appends nothing, as the
      last `else if` of the parser does. */
  function Utf8Encode(cp: int): (r: string)
    requires 0 <= cp
    ensures cp <= 0x7F ==> |r| == 1 && r[0] as int == cp
    ensures 0x7F < cp <= 0x7FF ==> |r| == 2 && 0xC2 <= r[0] as int <= 0xDF && IsContinuation(r[1])
    ensures 0x7FF < cp <= 0xFFFF ==>
              |r| == 3 && 0xE0 <= r[0] as int <= 0xEF && IsContinuation(r[1]) && IsContinuation(r[2])
    ensures 0xFFFF < cp <= 0x10FFFF ==>
              |r| == 4 && 0xF0 <= r[0] as int <= 0xF4
              && IsContinuation(r[1]) && IsContinuation(r[2]) && IsContinuation(r[3])
    ensures 0x10FFFF < cp ==> r == []
    ensures forall i :: 0 <= i < |r| ==> r[i] as int < 256
  {
    if cp <= 0x7F then
      [Byte(cp)]
    else if cp <= 0x7FF then
      [Byte(0xC0 + (cp / 0x40) % 0x20), Byte(0x80 + cp % 0x40)]
    else if cp <= 0xFFFF then
      [Byte(0xE0 + (cp / 0x1000) % 0x10), Byte(0x80 + (cp / 0x40) % 0x40), Byte(0x80 + cp % 0x40)]
    else if cp <= 0x10FFFF then
      [Byte(0xF0 + (cp / 0x40000) % 0x8), Byte(0x80 + (cp / 0x1000) % 0x40),
       Byte(0x80 + (cp / 0x40) % 0x40), Byte(0x80 + cp % 0x40)]
    else
      []
  }

  /** Reads one code point back from exactly the bytes of its UTF-8 encoding. */
  function Utf8Decode(b: string): Option<int> {
    if |b| == 1 && b[0] as int <= 0x7F then
      Some(b[0] as int)
    else if |b| == 2 && 0xC0 <= b[0] as int <= 0xDF && IsContinuation(b[1]) then
      Some((b[0] as int - 0xC0) * 0x40 + (b[1] as int - 0x80))
    else if |b| == 3 && 0xE0 <= b[0] as int <= 0xEF && IsContinuation(b[1]) && IsContinuation(b[2]) then
      Some((b[0] as int - 0xE0) * 0x1000 + (b[1] as int - 0x80) * 0x40 + (b[2] as int - 0x80))
    else if |b| == 4 && 0xF0 <= b[0] as int <= 0xF7 && IsContinuation(b[1]) && IsContinuation(b[2])
            && IsContinuation(b[3]) then
      Some((b[0] as int - 0xF0) * 0x40000 + (b[1] as int - 0x80) * 0x1000
           + (b[2] as int - 0x80) * 0x40 + (b[3] as int - 0x80))
    else
      None
  }

  /** `x / 64^(k+1)` is `(x / 64^k) / 64`, spelled out for the shifts UTF-8 uses. */
  lemma SixBitGroups(cp: int)
    requires 0 <= cp
    ensures cp / 0x40 == (cp / 0x1000) * 0x40 + (cp / 0x40) % 0x40
    ensures cp / 0x1000 == (cp / 0x40000) * 0x40 + (cp / 0x1000) % 0x40
  {
    var a := cp / 0x40;
    assert a / 0x40 == cp / 0x1000 by {
      DivModUnique(cp, 0x1000, a / 0x40, (a % 0x40) * 0x40 + cp % 0x40);
    }
    var b := cp / 0x1000;
    assert b / 0x40 == cp / 0x40000 by {
      DivModUnique(cp, 0x40000, b / 0x40, (b % 0x40) * 0x1000 + cp % 0x1000);
    }
  }

  /** Every scalar the parser can produce is encoded so that it decodes to itself. */
  lemma Utf8RoundTrip(cp: int)
    requires 0 <= cp <= 0x10FFFF
    ensures Utf8Decode(Utf8Encode(cp)) == Some(cp)
  {
    SixBitGroups(cp);
    if 0x7F < cp <= 0x7FF {
      assert (cp / 0x40) % 0x20 == cp / 0x40;
    } else if 0x7FF < cp <= 0xFFFF {
      assert (cp / 0x1000) % 0x10 == cp / 0x1000;
    } else if 0xFFFF < cp {
      assert (cp / 0x40000) % 0x8 == cp / 0x40000;
    }
  }

  /** The four bytes of a surrogate pair decode to the supplementary code point the pair stands
      for, and that code point splits back into the pair. */
  lemma PairRoundTrip(high: int, low: int)
    requires IsHighSurrogate(high) && IsLowSurrogate(low)
    ensures var b := Utf8Encode(CombineSurrogates(high, low));
      && |b| == 4 && Utf8Decode(b).Some? && 0x10000 <= Utf8Decode(b).value <= 0x10FFFF
      && SplitSurrogates(Utf8Decode(b).value) == (high, low)
  {
    Utf8RoundTrip(CombineSurrogates(high, low));
    CombineThenSplit(high, low);
  }
}

=== FILE: value.dfy ===
/** The document tree `json_value`: a closed sum over the six JSON kinds, with total,
    side-effect-free accessors, and the three shared sentinels. */
module JsonValue {
  import opened JsonMaybe
  import opened KeyOrder

  /** A 64-bit IEEE double, kept as its bit pattern; the model does no arithmetic on it. */
  datatype Double = Double(bits: bv64)

  /** `json_type`, in the source's declaration order. */
  datatype JsonType = ObjectType | ArrayType | StringType | NumberType | BooleanType | NullType

  /** One JSON node. An object is a map, iterated in ascending key order; an array keeps its
      elements in the order they were pushed. */
  datatype Value =
    | Null
    | Boolean(boolean: bool)
    | Number(number: Double)
    | String(str: string)
    | Object(members: map<string, Value>)
    | Array(elements: seq<Value>)
  {
    /** The tag the constructor stored: each constructor stores the tag of the alternative it
        holds. */
    function Type(): (t: JsonType)
      ensures (t == ObjectType <==> Object?) && (t == ArrayType <==> Array?)
      ensures (t == StringType <==> String?) && (t == NumberType <==> Number?)
      ensures (t == BooleanType <==> Boolean?) && (t == NullType <==> Null?)
    {
      match this
      case Null => NullType
      case Boolean(_) => BooleanType
      case Number(_) => NumberType
      case String(_) => StringType
      case Object(_) => ObjectType
      case Array(_) => ArrayType
    }

    /** Whether the object alternative is held; it agrees with the stored tag. */
    predicate IsObject(): (r: bool)
      ensures r <==> Type() == ObjectType
    {
      Object?
    }

    /** Whether the array alternative is held; it agrees with the stored tag. */
    predicate IsArray(): (r: bool)
      ensures r <==> Type() == ArrayType
    {
      Array?
    }

    /** Whether the string alternative is held; it agrees with the stored tag. */
    predicate IsString(): (r: bool)
      ensures r <==> Type() == StringType
    {
      String?
    }

    /** Whether the number alternative is held; it agrees with the stored tag. */
    predicate IsNumber(): (r: bool)
      ensures r <==> Type() == NumberType
    {
      Number?
    }

    /** Whether the boolean alternative is held; it agrees with the stored tag. */
    predicate IsBoolean(): (r: bool)
      ensures r <==> Type() == BooleanType
    {
      Boolean?
    }

    /** Whether the null alternative is held; it agrees with the stored tag. */
    predicate IsNull(): (r: bool)
      ensures r <==> Type() == NullType
    {
      Null?
    }

    function AsString(): (r: Maybe<string>)
      ensures r.HasValue() <==> IsString()
      ensures IsString() ==> r.Value() == str
    {
      if IsString() then Ref(str) else Empty
    }

    function AsNumber(): (r: Maybe<Double>)
      ensures r.HasValue() <==> IsNumber()
      ensures IsNumber() ==> r.Value() == number
    {
      if IsNumber() then Ref(number) else Empty
    }

    function AsBoolean(): (r: Maybe<bool>)
      ensures r.HasValue() <==> IsBoolean()
      ensures IsBoolean() ==> r.Value() == boolean
    {
      if IsBoolean() then Ref(boolean) else Empty
    }

    function AsObject(): (r: Maybe<map<string, Value>>)
      ensures r.HasValue() <==> IsObject()
      ensures IsObject() ==> r.Value() == members
    {
      if IsObject() then Ref(members) else Empty
    }

    function AsArray(): (r: Maybe<seq<Value>>)
      ensures r.HasValue() <==> IsArray()
      ensures IsArray() ==> r.Value() == elements
    {
      if IsArray() then Ref(elements) else Empty
    }

    /** `operator[](key)`: the mapped value, or the null sentinel for a missing key or a
        value that is not an object. */
    function AtKey(key: string): (r: Value)
      ensures IsObject() && key in members ==> r == members[key]
      ensures !(IsObject() && key in members) ==> r == JsonNull
    {
      if IsObject() && key in members then members[key] else JsonNull
    }

    /** `operator[](index)`: element `index`, or the null sentinel when out of range or when
        the value is not an array. */
    function AtIndex(index: nat): (r: Value)
      ensures IsArray() && index < |elements| ==> r == elements[index]
      ensures !(IsArray() && index < |elements|) ==> r == JsonNull
    {
      if IsArray() && index < |elements| then elements[index] else JsonNull
    }

    /** `each_element`: the array's elements in stored order; for anything else the
        iteration runs over the empty-array sentinel. */
    function EachElement(): (r: seq<Value>)
      ensures IsArray() ==> r == elements
      ensures !IsArray() ==> r == []
    {
      if IsArray() then elements else JsonEmptyArray.elements
    }

    /** `each_property`: (key, value) pairs in ascending key order; for anything else the
        iteration runs over the empty-object sentinel. */
    function EachProperty(): (r: seq<(string, Value)>)
      ensures !IsObject() ==> r == []
      ensures IsObject() ==> |r| == |members|
      ensures IsObject() ==> forall k :: k in members ==> exists i :: 0 <= i < |r| && r[i].0 == k
      ensures forall i :: 0 <= i < |r| ==> IsObject() && r[i].0 in members && r[i].1 == members[r[i].0]
      ensures forall i, j :: 0 <= i < j < |r| ==> Below(r[i].0, r[j].0)
    {
      if IsObject() then Entries(members) else Entries(JsonEmptyObject.members)
    }
  }

  /** The entries of an ordered map, in ascending key order. */
  function Entries(m: map<string, Value>): (r: seq<(string, Value)>)
    ensures |r| == |m|
    ensures forall i :: 0 <= i < |r| ==> r[i].0 in m && r[i].1 == m[r[i].0]
    ensures forall k :: k in m ==> exists i :: 0 <= i < |r| && r[i].0 == k
    ensures forall i, j :: 0 <= i < j < |r| ==> Below(r[i].0, r[j].0)
  {
    var keys := SortedKeys(m.Keys);
    var r := seq(|keys|, i requires 0 <= i < |keys| => (keys[i], m[keys[i]]));
    EntriesInKeyOrder(m, keys, r);
    r
  }

  /** Pairing each key of `keys`, the keys of `m` in ascending order, with its value. */
  lemma EntriesInKeyOrder(m: map<string, Value>, keys: seq<string>, r: seq<(string, Value)>)
    requires |keys| == |m.Keys| && (forall i :: 0 <= i < |keys| ==> keys[i] in m) && (forall k :: k in m ==> k in keys)
    requires Ascending(keys)
    requires |r| == |keys| && forall i :: 0 <= i < |r| ==> r[i] == (keys[i], m[keys[i]])
    ensures |r| == |m|
    ensures forall i :: 0 <= i < |r| ==> r[i].0 in m && r[i].1 == m[r[i].0]
    ensures forall k :: k in m ==> exists i :: 0 <= i < |r| && r[i].0 == k
    ensures forall i, j :: 0 <= i < j < |r| ==> Below(r[i].0, r[j].0)
  {
    assert |m.Keys| == |m|;
    forall k | k in m ensures exists i :: 0 <= i < |r| && r[i].0 == k {
      var i :| 0 <= i < |keys| && keys[i] == k;
      assert r[i].0 == k;
    }
  }

  /** `json_null`, the sentinel every failed lookup returns. */
  const JsonNull: Value := Null
  /** `json_empty_object`. */
  const JsonEmptyObject: Value := Object(map[])
  /** `json_empty_array`. */
  const JsonEmptyArray: Value := Array([])

  /** The three sentinels are a null, an object without entries and an array without
      elements, and nothing can be read out of them. */
  lemma SentinelShapes(key: string, index: nat)
    ensures JsonNull.IsNull() && JsonNull.Type() == NullType
    ensures JsonEmptyObject.IsObject() && JsonEmptyObject.AsObject().Value() == map[]
    ensures JsonEmptyArray.IsArray() && JsonEmptyArray.AsArray().Value() == []
    ensures JsonEmptyObject.EachProperty() == [] && JsonEmptyArray.EachElement() == []
    ensures JsonEmptyObject.AtKey(key) == JsonNull && JsonEmptyArray.AtIndex(index) == JsonNull
  {
  }

  /** `type()` agrees with the active alternative: exactly one `is_*` predicate holds, and it
      is the one `type()` names. */
  lemma TypeMatchesVariant(v: Value)
    ensures (v.Type() == ObjectType <==> v.IsObject()) && (v.Type() == ArrayType <==> v.IsArray())
    ensures (v.Type() == StringType <==> v.IsString()) && (v.Type() == NumberType <==> v.IsNumber())
    ensures (v.Type() == BooleanType <==> v.IsBoolean()) && (v.Type() == NullType <==> v.IsNull())
    ensures (if v.IsObject() then 1 else 0) + (if v.IsArray() then 1 else 0)
          + (if v.IsString() then 1 else 0) + (if v.IsNumber() then 1 else 0)
          + (if v.IsBoolean() then 1 else 0) + (if v.IsNull() then 1 else 0) == 1
  {
  }

  /** One step of a chain of subscripts: `[key]` or `[index]`. */
  datatype Subscript = Key(key: string) | Index(index: nat)

  /** Applies a chain of subscripts left to right, as `doc["a"][0]["b"]` does. */
  function Follow(v: Value, path: seq<Subscript>): Value
    decreases |path|
  {
    if |path| == 0 then v
    else
      var next := match path[0]
        case Key(k) => v.AtKey(k)
        case Index(i) => v.AtIndex(i);
      Follow(next, path[1..])
  }

  /** Indexing from the null sentinel stays null however long the chain: no chain of
      subscripts ever faults. */
  lemma {:induction false} FollowFromNull(path: seq<Subscript>)
    ensures Follow(JsonNull, path) == JsonNull
    decreases |path|
  {
    if |path| > 0 {
      FollowFromNull(path[1..]);
    }
  }

  /** Once a subscript misses, the rest of the chain yields the null sentinel. */
  lemma FollowAfterMiss(v: Value, path: seq<Subscript>)
    requires |path| > 0
    requires match path[0]
      case Key(k) => !(v.IsObject() && k in v.members)
      case Index(i) => !(v.IsArray() && i < |v.elements|)
    ensures Follow(v, path) == JsonNull
  {
    FollowFromNull(path[1..]);
  }
}
